=== FILE: README.md ===
# Blog service core, modelled in Dafny

This project models the two pieces of logic at the centre of a small gRPC
blog service. The service stores blogs with comments in PostgreSQL.

- **The PostgreSQL store** (`internal/datastore/pg/store.go`). It covers:
  - how `Update` builds its partial `UPDATE` and numbers its placeholders;
  - how `List` builds its query, fetches one row more than the page size
    (the *probe row*), trims it, and derives the next-page token;
  - how `Create`, `Get`, `Delete` and `AddComment` classify what the driver
    tells them into "blog not found" and the other wrapped errors.
- **The request façade** (`internal/service/blog.go`). It covers:
  - required-field validation;
  - the page-size clamp;
  - how `Update` forwards its optional fields;
  - the filter `Get` applies to comments;
  - the mapping of store errors to status codes and messages.

Modules:

- `Datastore` (`datastore.dfy`): the entities of `models.go` (`Blog`,
  `Comment`, `BlogSummary`, `ID`) and Go's `int32` with explicit wrap-around.
  It also holds what a store call returns: a value, or an error classified by
  the `return` that produced it, plus its `Error()` text.
- `Ids` (`datastore.dfy`): the byte-wise order the database is assumed to use
  to compare ids (`ORDER BY b.id`, `b.id > $1`). The module proves the order is strict
  and total.
- `PgStore` (`pg_store.dfy`): each store operation as a pure function. It
  takes the driver's reply (an exec result, a row, a row set) as a parameter,
  and returns the statements issued (argument lists and placeholder numbers)
  and the outcome.
- `Backend` (`backend.dfy`): an abstract table, a sequence of posts sorted by
  id, each with its comments. It gives the replies a database holding that
  table would send to each statement. The `...On` functions run a store
  operation against a table.
- `Paging` (`paging.dfy`): what `List` returns on a table, and what a client
  sees when it feeds each next token back in. This includes the skipped probe
  rows (see Findings) and a corrected trim whose walk lists every blog.
- `BlogService` (`service.dfy`): the façade's six handlers, as total
  functions from a request and the store's outcome to a reply and the store
  call made.
- `Wiring` (`wiring.dfy`): the handlers answered by the store running on a
  table. It states what a client sees for a missing blog, an empty update and
  a listing.

A handler's reply is `Response`, `Failure(status)` or `Crashed`; it is never a
response and an error at once. `Crashed` stands for a panic inside the store
that propagates through the handler.

## Model

| member | source | states |
|---|---|---|
| Datastore.AddWrap32 | internal/datastore/pg/store.go:154 | `pageSize+1` in int32 equals the true sum when it fits, differs from it when it does not, and always agrees with it modulo 2^32 |
| Datastore.Wrap | internal/datastore/pg/store.go:25 | a wrapped error's text is the prefix, `": "`, then the cause's text, each found at its position |
| PgStore.Create | internal/datastore/pg/store.go:16-28 | one INSERT with `[id, title, content]`; success returns the generated, non-empty id; an exec failure is "failed to create blog: cause" and nothing else fails |
| PgStore.Get | internal/datastore/pg/store.go:30-62 | only the blog SELECT is issued; a missing row, and nothing else, is "blog not found: sql: no rows in result set"; other failures are "failed to get blog"; a found blog carries the row's fields and no comments |
| PgStore.UpdateStatement | internal/datastore/pg/store.go:64-92 | an UPDATE is built exactly when title or content is present |
| PgStore.UpdateStatementLayout | internal/datastore/pg/store.go:67-92 | arguments are `[title?, content?, id]`; assignment i uses `$i+1` and binds its own column's value; the id's placeholder equals the argument count; a column is assigned iff its field is present |
| PgStore.ExecOutcome | internal/datastore/pg/store.go:94-108 | success iff the exec succeeded and affected a non-zero number of rows; "blog not found" iff it affected 0; exec and RowsAffected failures are wrapped with their own prefixes |
| PgStore.Update | internal/datastore/pg/store.go:64-109 | with neither field, nothing is issued and the result is success; otherwise the one UPDATE is issued; success iff it affected rows; 0 rows is exactly "blog not found"; an exec failure is "failed to update blog: cause" and a RowsAffected failure is "failed to get rows affected: cause" |
| PgStore.Delete | internal/datastore/pg/store.go:111-130 | one DELETE with `[id]`; success iff rows were affected; "blog not found" iff 0 rows, with exactly that text; an exec failure is "failed to delete blog: cause" and a RowsAffected failure is "failed to get rows affected: cause" |
| PgStore.ListStatement | internal/datastore/pg/store.go:139-154 | arguments are `[token, pageSize+1]` with the `> $1` bound for a non-empty token, else `[pageSize+1]` with no bound; the LIMIT placeholder is the argument count |
| PgStore.ScanRows | internal/datastore/pg/store.go:162-170 | scanning succeeds iff every count fits int32, and then gives one summary per row with the same id, title and count |
| PgStore.FetchSummaries | internal/datastore/pg/store.go:156-174 | a query failure is "failed to list blogs", an out-of-range count is "failed to scan blog summary", and an iteration error is "error iterating blog summaries", checked in that order; summaries come back iff the query ran, every row scanned and iteration reported no error |
| PgStore.TrimProbe | internal/datastore/pg/store.go:176-184 | with more rows than the page size, the last row is dropped and its id becomes the token, and this panics iff there are no rows; otherwise all rows are kept with an empty token |
| PgStore.List | internal/datastore/pg/store.go:132-185 | the statement is the listing query; it fails with "failed to list blogs", "failed to scan blog summary" or "error iterating blog summaries" in that order of checks; it panics iff the page size is negative and no rows came back; it succeeds iff the query ran, every row scanned, iteration was clean and it did not panic; on success at most `pageSize` summaries come from at most `pageSize+1` rows, and they match the fetched rows in order; the token is the last fetched id exactly when more than `pageSize` rows came back |
| PgStore.AddComment | internal/datastore/pg/store.go:187-212 | the existence check is always issued first; an INSERT is issued iff the check found the blog; a missing blog is "blog not found" and a failed check is "failed to check blog existence"; success returns the generated, non-empty id |
| PgStore.TrimProbeCorrected | internal/datastore/pg/store.go:176-184 | corrected trim: for a positive page size the result is never a panic; the first `pageSize` rows are kept and the last kept id is the token |
| PgStore.ListCorrected | internal/datastore/pg/store.go:132-185 | corrected listing: same statement as `List`, same errors as `List`; for a positive page size it never panics and succeeds iff the query ran, every row scanned and iteration was clean |
| Backend.Above | internal/datastore/pg/store.go:143-147 | the rows after the token are exactly the stored rows whose id is greater than the token |
| Backend.CreateOnTable | internal/datastore/pg/store.go:16-28 | on a table, Create succeeds iff the generated id is not taken, and then returns that id |
| Backend.GetOnTable | internal/datastore/pg/store.go:30-62 | on a table, Get succeeds iff the id is stored, returning that row's title and content and no comments; a missing id gives the exact "blog not found" error |
| Backend.UpdateOnTable | internal/datastore/pg/store.go:94-108 | on any table, with a field to write, Update succeeds iff the blog exists; otherwise the result is exactly "blog not found" |
| Backend.DeleteOnTable | internal/datastore/pg/store.go:112-129 | on any table, Delete succeeds iff the blog exists; otherwise the result is exactly "blog not found" |
| Backend.AddCommentOnTable | internal/datastore/pg/store.go:188-211 | on a table, AddComment succeeds iff the blog exists, after issuing check and insert; for a missing blog only the check is issued, and the result is "blog not found" |
| Paging.ListOnPage | internal/datastore/pg/store.go:132-185 | on a valid table, with `0 <= pageSize < MaxInt32`, `List` returns the first `pageSize` candidates after the token, with the next candidate's (the probe row's) id as the token when one exists |
| Paging.ListOnSucceeds | internal/datastore/pg/store.go:156-184 | on a valid table, with `0 <= pageSize < MaxInt32`, `List` neither fails nor panics (a negative size fails or, at -1 with no rows, panics; `MaxInt32` fails, see `Paging.ListAtInt32Max`) |
| Paging.ListAtInt32Max | internal/datastore/pg/store.go:154 | at page size `MaxInt32` the LIMIT argument wraps to `MinInt32` and `List` fails with the database's negative-LIMIT error |
| Paging.PageShape | internal/datastore/pg/store.go:143-184 | a page holds at most `pageSize` blogs, in ascending id order, all after the token; a next token is a stored id that lies after every returned id and is not itself returned |
| Paging.ProbePageShape | internal/datastore/pg/store.go:176-184 | a page of sorted candidates holds their first summaries in order; the token is the probe row's id, after all of them and not among them |
| Paging.ConsecutivePagesAscend | internal/datastore/pg/store.go:143-184 | every id of a page is below every id of the page its token leads to, so consecutive pages are disjoint and ascending |
| Paging.ProbeRowSkipped | internal/datastore/pg/store.go:176-184 | with more than k blogs, the first token is blog k's id; blog k is on neither the first page nor the next, which lies wholly after it |
| Paging.TwoBlogsPageSizeOne | internal/datastore/pg/store.go:176-184 | blogs "a" and "b", page size 1: the first page is `[a]` with token "b", and the page for "b" is empty with no token |
| Paging.ListAllPages | internal/datastore/pg/store.go:176-184 | a client following tokens from the start collects exactly "k rows, skip one" over the table; a summary is collected iff its row is not at a probe position; row k is missing whenever more than k blogs exist; ids are strictly ascending and never repeat |
| Paging.SkipEveryShape | internal/datastore/pg/store.go:176-184 | the skip-every-probe listing of a sorted table keeps exactly the non-probe rows, leaves out row k, and is strictly ascending without repeats |
| Paging.CorrectionKeepsRows | internal/datastore/pg/store.go:176-184 | on a valid table, with `1 <= pageSize < MaxInt32`, the corrected and the as-written store both succeed and return the same summaries; only the token differs |
| Paging.ListCorrectedOnPage | internal/datastore/pg/store.go:176-184 | on a valid table, with `1 <= pageSize < MaxInt32`, the corrected `List` returns the first `pageSize` candidates, with the last returned id as the token when more exist |
| Paging.ListAllPagesCorrected | internal/datastore/pg/store.go:176-184 | a client following the corrected store's tokens collects every blog exactly once, in id order |
| BlogService.StoreFailure | internal/service/blog.go:40 | a store error is reported with the given code and the message "prefix: store message": the prefix, then `": "`, then the store error's text, each at its position |
| BlogService.Create | internal/service/blog.go:29-48 | the store is called iff title and content are both non-empty; "title is required" is checked before "content is required"; a store success returns the store's id; a store error is Internal "failed to create blog: …" |
| BlogService.KeepIdentified | internal/service/blog.go:63-74 | no more comments are sent than stored, and every sent comment has a non-empty id |
| BlogService.KeepIdentifiedMembers | internal/service/blog.go:63-74 | a comment message is sent iff some stored comment with a non-empty id produces it |
| BlogService.KeepIdentifiedAppend | internal/service/blog.go:64-74 | filtering commutes with concatenation, so kept comments keep their relative order |
| BlogService.KeepIdentifiedAll | internal/service/blog.go:63-74 | nothing is dropped iff every comment has an id, and then every comment is sent in place |
| BlogService.BlogMsgOf | internal/service/blog.go:63-87 | the response blog carries the store blog's id, title, content and timestamps unchanged, and its comments are exactly `KeepIdentified` of the stored comments: those with a non-empty id, in order |
| BlogService.Get | internal/service/blog.go:51-88 | an absent Id is InvalidArgument "blog ID is required" with no store call; a present Id, even empty, is passed on unchanged; store success gives the blog message; any store error is NotFound "failed to get blog: …" |
| BlogService.Update | internal/service/blog.go:91-115 | an absent Id is rejected with no store call; each optional field is forwarded iff set, with its value unchanged; success iff the store succeeds, else Internal "failed to update blog: …" |
| BlogService.Delete | internal/service/blog.go:118-130 | an absent Id is rejected with no store call; the Id's value is forwarded; success iff the store succeeds, else Internal "failed to delete blog: …" |
| BlogService.ClampPageSize | internal/service/blog.go:134-140 | the size sent is in [1,100]: 10 for ≤ 0, 100 for > 100, unchanged in between |
| BlogService.ClampIdempotent | internal/service/blog.go:134-140 | clamping a clamped size changes nothing |
| BlogService.SummaryMsgs | internal/service/blog.go:147-156 | one summary message per store summary, in order |
| BlogService.SummaryMsgsRoundTrip | internal/service/blog.go:147-156 | each summary message reads back to its store summary (id, title, count) |
| BlogService.List | internal/service/blog.go:133-162 | the store gets the clamped size and the token unchanged; a store panic is a crash; success sends the summaries one-to-one and the store's token unchanged; a store error is Internal "failed to list blogs: …"; never rejected |
| BlogService.AddComment | internal/service/blog.go:165-185 | the store is called iff Id is present and content and author are non-empty, checked in that order with their own messages; success iff the store succeeds, else Internal "failed to add comment: …" |
| BlogService.RejectedIffStoreNotCalled | internal/service/blog.go:29-185 | Create, List and AddComment answer InvalidArgument exactly when they do not call the store |
| BlogService.RejectedIffNoId | internal/service/blog.go:51-130 | Get, Update and Delete answer InvalidArgument exactly when they do not call the store |
| BlogService.StoreErrorCodes | internal/service/blog.go:38-182 | any store error gives NotFound from Get and Internal from Create, Update, Delete, List and AddComment |
| Wiring.GetMissingBlog | internal/service/blog.go:57-60 | Get of a blog not in the table is NotFound "failed to get blog: blog not found: sql: no rows in result set" |
| Wiring.GetStoredBlog | internal/datastore/pg/store.go:58-61 | Get of a stored blog returns its id, title and content, and no comments whatever the table holds |
| Wiring.UpdateMissingBlog | internal/service/blog.go:109-112 | Update of a missing blog with a field to write is Internal "failed to update blog: blog not found" |
| Wiring.EmptyUpdateSucceeds | internal/datastore/pg/store.go:84-86 | Update with neither field succeeds and issues no statement, even for a missing blog |
| Wiring.DeleteMissingBlog | internal/service/blog.go:124-127 | Delete of a missing blog is Internal "failed to delete blog: blog not found" |
| Wiring.AddCommentMissingBlog | internal/service/blog.go:178-182 | AddComment on a missing blog is Internal "failed to add comment: blog not found", and only the existence check is issued |
| Wiring.ListThroughFacade | internal/service/blog.go:134-161 | through the façade, the LIMIT argument is the clamped size plus one, with no wrap, and the response is the table's page for that size and token |
| Wiring.FacadeListNeverCrashes | internal/service/blog.go:134-142 | a listing through the façade never reaches the store's empty-slice panic, whatever size was requested |
| Wiring.CreateThroughFacade | internal/service/blog.go:38-47 | a valid Create returns the generated id iff that id is free in the table; otherwise it is Internal |

## Where the code and its description differ

The model follows the code in each of these cases.

- `Get` in the store loads no comments (`store.go:58-61`), though the store
  interface's comment and `store_test.go` expect a comment query. The
  façade's comment filter therefore only ever sees an empty list from this
  store. `Wiring.GetStoredBlog` states this.
- `Create` and `AddComment` in the façade reject empty title, content,
  comment content and author before calling the store (`blog.go:31-36`,
  `171-176`). Their unit tests expect the store to be called with such values.
- The store's "blog not found" from `Update`, `Delete` and `AddComment`
  reaches the client as Internal, not NotFound. Only `Get` maps store errors
  to NotFound.

## Left out

- SQL execution. The table is abstract state: a sorted sequence of posts
  with their comments. The `LEFT JOIN … COUNT` aggregate is the length of a
  post's comment sequence, and `ON DELETE CASCADE` is that comments live
  inside their post. The model has no state transitions: every operation is
  modelled against one snapshot of the table.
- Paging.PageShape, Paging.ListOnPage and the other paging lemmas require a
  `Valid` table. The primary key, `ORDER BY b.id` and the generated UUID ids
  give sorted, unique, non-empty ids. The bound on each blog's comment count
  (`Backend.CountsFit`: at most 2^31-1) is an assumption of these lemmas
  only; nothing in the schema enforces it. Past that bound the scan of the
  `COUNT` into the int32 field fails, and `PgStore.ScanRows` and
  `PgStore.FetchSummaries` model that failure.
- Collation. Ids are compared byte-wise (`Ids.Less`), as under PostgreSQL's
  C collation; the schema and its collation are not part of this model. Any
  collation gives one strict total order shared by `ORDER BY b.id` and
  `b.id > $1`. The general paging lemmas use only those facts about
  `Ids.Less` (`Ids.Irreflexive`, `Ids.Asymmetric`, `Ids.Transitive`); the
  two-blog example also uses that "a" sorts before "b".
- Paging.ListAllPages and Paging.ListAllPagesCorrected require
  `1 <= pageSize < MaxInt32`. Those are the sizes the façade sends after
  clamping. `Paging.ListAtInt32Max` and `PgStore.List` cover the others.
- UUID generation. The generated id is a parameter (`newId`, 36 characters).
- Timestamps. They are opaque values that are never inspected, and the
  `time.Time`/`timestamppb` conversion is not modelled.
- `context` cancellation, and the check-then-insert race in `AddComment`.
  Both are concurrency concerns.
- Scan errors other than an out-of-range comment count. The driver's
  conversion message is represented by one constant text.
- Process start-up, listeners and configuration (`cmd/server/server.go`,
  `internal/datastore/pg/options.go`, the config in
  `internal/datastore/pg/models.go`). These are I/O and driver wrappers.
- Protobuf plumbing beyond field presence and values. A nil request message
  is not modelled.

## Findings

| source | as written | input that shows it | evidently intended | confidence | as-written member | corrected member |
|---|---|---|---|---|---|---|
| internal/datastore/pg/store.go:180 | the next-page token is the id of the dropped probe row, and the next page starts strictly after it (`b.id > $1`), so every probe row is on no page | blogs "a" and "b", page size 1: page one is `[a]` with token "b", and the page for "b" is empty; "b" is never listed | the token is the id of the last returned row, so the next page starts at the probe row | not executed | Paging.TwoBlogsPageSizeOne | Paging.ListAllPagesCorrected |

=== FILE: backend.dfy ===
/**
  An abstract PostgreSQL table for the store to run against: the blogs in
  ascending id order, each with its comments (so ON DELETE CASCADE and the
  LEFT JOIN ... COUNT aggregate are a matter of the state's shape). The
  functions here give the driver replies the store's statements would get;
  the `...On` functions run a store operation against that table.
 */
module Backend {
  import opened Datastore
  import opened PgStore
  import Ids

  /** A stored blog together with all of its comments. */
  type Post = Blog

  /** Ids strictly ascending (so also distinct). */
  ghost predicate Sorted(posts: seq<Post>)
  {
    forall i, j :: 0 <= i < j < |posts| ==> Ids.Less(posts[i].id, posts[j].id)
  }

  /** A table the store can meet: sorted, non-empty (generated) ids, and
      comment counts the int32 summary field can hold. */
  ghost predicate Valid(posts: seq<Post>)
  {
    && Sorted(posts)
    && (forall i :: 0 <= i < |posts| ==> posts[i].id != "")
    && CountsFit(posts)
  }

  /** Every blog's comment count fits the summary's int32 field. */
  ghost predicate CountsFit(ps: seq<Post>)
  {
    forall i :: 0 <= i < |ps| ==> |ps[i].comments| <= MaxInt32
  }

  predicate HasId(posts: seq<Post>, id: Id)
  {
    exists i :: 0 <= i < |posts| && posts[i].id == id
  }

  /** `WHERE id = $1`: the row with that id, if any. */
  function Find(posts: seq<Post>, id: Id): (r: Option<Post>)
    ensures r.Some? <==> HasId(posts, id)
    ensures r.Some? ==> r.value in posts && r.value.id == id
  {
    if posts == [] then None
    else if posts[0].id == id then Some(posts[0])
    else
      var r := Find(posts[1..], id);
      assert HasId(posts[1..], id) ==> HasId(posts, id) by {
        if HasId(posts[1..], id) {
          var i :| 0 <= i < |posts[1..]| && posts[1..][i].id == id;
          assert posts[i + 1].id == id;
        }
      }
      r
  }

  /** The number of rows `WHERE id = $n` matches. */
  function CountId(posts: seq<Post>, id: Id): nat
  {
    if posts == [] then 0
    else (if posts[0].id == id then 1 else 0) + CountId(posts[1..], id)
  }

  /** Some row matches exactly when the table holds the id, sorted or not. */
  lemma {:induction false} CountIdPositive(posts: seq<Post>, id: Id)
    ensures CountId(posts, id) != 0 <==> HasId(posts, id)
  {
    if posts != [] {
      CountIdPositive(posts[1..], id);
      if HasId(posts, id) && posts[0].id != id {
        var i :| 0 <= i < |posts| && posts[i].id == id;
        assert posts[1..][i - 1].id == id;
      }
      if HasId(posts[1..], id) {
        var i :| 0 <= i < |posts[1..]| && posts[1..][i].id == id;
        assert posts[i + 1].id == id;
      }
    }
  }

  function RowOf(p: Post): BlogRow
  {
    BlogRow(p.id, p.title, p.content, p.createdAt, p.updatedAt)
  }

  /** A blog's listing row: the COUNT of its comments is the LEFT JOIN
      aggregate, 0 when it has none. */
  function SummaryRowOf(p: Post): SummaryRow
  {
    SummaryRow(p.id, p.title, |p.comments|)
  }

  /** `WHERE b.id > $1`: the rows strictly after `token`, in table order. */
  function Above(posts: seq<Post>, token: string): (r: seq<Post>)
    ensures |r| <= |posts|
    ensures forall p :: p in r <==> p in posts && Ids.Less(token, p.id)
  {
    if posts == [] then []
    else (if Ids.Less(token, posts[0].id) then [posts[0]] else []) + Above(posts[1..], token)
  }

  /** The rows the listing query considers: all of them without a token,
      those after it with one. */
  function Candidates(posts: seq<Post>, token: string): seq<Post>
  {
    if token == "" then posts else Above(posts, token)
  }

  function Take<T>(s: seq<T>, n: int): (r: seq<T>)
    ensures |r| == if n <= 0 then 0 else if n < |s| then n else |s|
    ensures r == s[..|r|]
  {
    if n <= 0 then [] else if n < |s| then s[..n] else s
  }

  function SummaryRows(posts: seq<Post>): (r: seq<SummaryRow>)
    ensures |r| == |posts| && forall i :: 0 <= i < |posts| ==> r[i] == SummaryRowOf(posts[i])
  {
    seq(|posts|, i requires 0 <= i < |posts| => SummaryRowOf(posts[i]))
  }

  /** The text argument bound to `$param`, if there is one. */
  function TextArg(args: seq<Arg>, param: nat): Option<string>
  {
    if 1 <= param <= |args| && args[param - 1].Text? then Some(args[param - 1].text) else None
  }

  const BindErrorText := "bind message supplies the wrong parameters"
  const NegativeLimitText := "LIMIT must not be negative"
  const DuplicateKeyText := "duplicate key value violates unique constraint"
  const ForeignKeyText := "insert or update on table \"comments\" violates foreign key constraint"

  // ------------------------------------------------------------ replies

  function RunSelectBlog(posts: seq<Post>, s: Statement): RowReply<BlogRow>
  {
    if !(s.SelectBlog? && |s.args| == 1 && TextArg(s.args, 1).Some?) then QueryFailed(BindErrorText)
    else
      match Find(posts, TextArg(s.args, 1).value)
      case None => NoRows
      case Some(p) => Found(RowOf(p))
  }

  function RunCheckBlog(posts: seq<Post>, s: Statement): RowReply<int>
  {
    if !(s.CheckBlog? && |s.args| == 1 && TextArg(s.args, 1).Some?) then QueryFailed(BindErrorText)
    else if HasId(posts, TextArg(s.args, 1).value) then Found(1)
    else NoRows
  }

  function RunUpdateBlog(posts: seq<Post>, s: Statement): ExecReply
  {
    if !(s.UpdateBlog? && s.idParam == |s.args| && TextArg(s.args, s.idParam).Some?) then ExecFailed(BindErrorText)
    else Executed(CountId(posts, TextArg(s.args, s.idParam).value))
  }

  function RunDeleteBlog(posts: seq<Post>, s: Statement): ExecReply
  {
    if !(s.DeleteBlog? && |s.args| == 1 && TextArg(s.args, 1).Some?) then ExecFailed(BindErrorText)
    else Executed(CountId(posts, TextArg(s.args, 1).value))
  }

  function RunInsertBlog(posts: seq<Post>, s: Statement): ExecReply
  {
    if !(s.InsertBlog? && |s.args| == 3 && TextArg(s.args, 1).Some?) then ExecFailed(BindErrorText)
    else if HasId(posts, TextArg(s.args, 1).value) then ExecFailed(DuplicateKeyText)
    else Executed(1)
  }

  function RunInsertComment(posts: seq<Post>, s: Statement): ExecReply
  {
    if !(s.InsertComment? && |s.args| == 4 && TextArg(s.args, 2).Some?) then ExecFailed(BindErrorText)
    else if HasId(posts, TextArg(s.args, 2).value) then Executed(1)
    else ExecFailed(ForeignKeyText)
  }

  /** The listing query: candidates in id order, at most LIMIT of them; a
      negative LIMIT is an error. */
  function RunListBlogs(posts: seq<Post>, s: Statement): RowsReply
  {
    if !(s.ListBlogs? && s.limitParam == |s.args| && s.limitParam >= 1 && s.args[s.limitParam - 1].Int?) then
      RowsFailed(BindErrorText)
    else if s.boundParam.Some? && TextArg(s.args, s.boundParam.value).None? then RowsFailed(BindErrorText)
    else
      var limit := s.args[s.limitParam - 1].n;
      var candidates := if s.boundParam.Some? then Above(posts, TextArg(s.args, s.boundParam.value).value) else posts;
      if limit < 0 then RowsFailed(NegativeLimitText)
      else Rows(SummaryRows(Take(candidates, limit as int)), None)
  }

  // ------------------------------------------------------------ operations run against the table

  function CreateOn(posts: seq<Post>, newId: Uuid, title: string, content: string): Call<Id>
  {
    Create(newId, title, content, RunInsertBlog(posts, CreateStatement(newId, title, content)))
  }

  function GetOn(posts: seq<Post>, id: Id): Call<Blog>
  {
    Get(id, RunSelectBlog(posts, GetStatement(id)))
  }

  function UpdateOn(posts: seq<Post>, id: Id, title: Option<string>, content: Option<string>): Call<()>
  {
    match UpdateStatement(id, title, content)
    case None => Update(id, title, content, Executed(0))
    case Some(s) => Update(id, title, content, RunUpdateBlog(posts, s))
  }

  function DeleteOn(posts: seq<Post>, id: Id): Call<()>
  {
    Delete(id, RunDeleteBlog(posts, DeleteStatement(id)))
  }

  function ListOn(posts: seq<Post>, pageSize: int32, token: string): Listing
  {
    List(pageSize, token, RunListBlogs(posts, ListStatement(pageSize, token)))
  }

  function AddCommentOn(posts: seq<Post>, blogId: Id, content: string, author: string, newId: Uuid): Call<Id>
  {
    AddComment(blogId, content, author, newId,
               RunCheckBlog(posts, CheckStatement(blogId)),
               RunInsertComment(posts, InsertCommentStatement(newId, blogId, content, author)))
  }

  // ------------------------------------------------------------ what the table makes of each operation

  /** Create succeeds, returning the generated id, exactly when that id is not
      already taken. */
  lemma CreateOnTable(posts: seq<Post>, newId: Uuid, title: string, content: string)
    ensures CreateOn(posts, newId, title, content).outcome.Ok? <==> !HasId(posts, newId)
    ensures !HasId(posts, newId) ==> CreateOn(posts, newId, title, content).outcome.value == newId
  {
  }

  /** Get finds the stored title and content of an existing blog, but returns
      no comments even when the blog has some; a missing blog is "blog not
      found". */
  lemma GetOnTable(posts: seq<Post>, id: Id)
    ensures GetOn(posts, id).outcome.Ok? <==> HasId(posts, id)
    ensures !HasId(posts, id) ==>
      GetOn(posts, id).outcome == Err(StoreError(BlogNotFound, Wrap("blog not found", NoRowsText)))
    ensures HasId(posts, id) ==>
      var b := GetOn(posts, id).outcome.value;
      && b.id == id
      && (exists i :: 0 <= i < |posts| && posts[i].id == id && b.title == posts[i].title && b.content == posts[i].content)
      && b.comments == []
  {
  }

  /** With a field to write, Update succeeds exactly when the blog exists and
      reports "blog not found" otherwise. */
  lemma UpdateOnTable(posts: seq<Post>, id: Id, title: Option<string>, content: Option<string>)
    requires title.Some? || content.Some?
    ensures UpdateOn(posts, id, title, content).outcome.Ok? <==> HasId(posts, id)
    ensures !HasId(posts, id) ==> UpdateOn(posts, id, title, content).outcome == Err(StoreError(BlogNotFound, "blog not found"))
  {
    CountIdPositive(posts, id);
  }

  /** Delete succeeds exactly when the blog exists and reports "blog not
      found" otherwise. */
  lemma DeleteOnTable(posts: seq<Post>, id: Id)
    ensures DeleteOn(posts, id).outcome.Ok? <==> HasId(posts, id)
    ensures !HasId(posts, id) ==> DeleteOn(posts, id).outcome == Err(StoreError(BlogNotFound, "blog not found"))
  {
    CountIdPositive(posts, id);
  }

  /** AddComment inserts, and returns the generated id, exactly when the blog
      exists; for a missing blog it inserts nothing and reports "blog not
      found". */
  lemma AddCommentOnTable(posts: seq<Post>, blogId: Id, content: string, author: string, newId: Uuid)
    ensures var r := AddCommentOn(posts, blogId, content, author, newId);
      && (r.outcome.Ok? <==> HasId(posts, blogId))
      && (HasId(posts, blogId) ==> r.outcome.value == newId && |r.issued| == 2 && r.issued[1].InsertComment?)
      && (!HasId(posts, blogId) ==> r.issued == [CheckBlog([Text(blogId)])] && r.outcome == Err(StoreError(BlogNotFound, "blog not found")))
  {
  }
}

=== FILE: datastore.dfy ===
/**
  Entities shared by the storage layer and the request façade: identifiers,
  blogs, comments, listing summaries, and the outcome of a store call.
  Timestamps are opaque values; the store never inspects them.
 */
module Datastore {

  /** An identifier (a UUID string in practice). */
  type Id = string

  /** Go's int32. */
  newtype int32 = x: int | -0x8000_0000 <= x < 0x8000_0000

  const MinInt32: int := -0x8000_0000
  const MaxInt32: int := 0x7fff_ffff

  /** True when `x` fits in an int32 without wrapping. */
  predicate InInt32(x: int) {
    MinInt32 <= x <= MaxInt32
  }

  /** Go's `a + b` on int32 operands: the mathematical sum reduced modulo 2^32
      into the signed range. */
  function AddWrap32(a: int32, b: int32): (r: int32)
    ensures InInt32(a as int + b as int) ==> r as int == a as int + b as int
    ensures !InInt32(a as int + b as int) ==> r as int != a as int + b as int
    ensures (a as int + b as int - r as int) % 0x1_0000_0000 == 0
  {
    ((a as int + b as int + 0x8000_0000) % 0x1_0000_0000 - 0x8000_0000) as int32
  }

  /** A string produced by the UUID generator: always 36 characters long. */
  type Uuid = s: string | |s| == 36
    witness "00000000-0000-0000-0000-000000000000"

  datatype Option<T> = None | Some(value: T)

  /** An opaque point in time, assigned by the database. */
  datatype Timestamp = Timestamp(nanos: int)

  datatype Comment = Comment(id: Id, blogId: Id, content: string, author: string, createdAt: Timestamp)

  datatype Blog = Blog(
    id: Id,
    title: string,
    content: string,
    createdAt: Timestamp,
    updatedAt: Timestamp,
    comments: seq<Comment>)

  datatype BlogSummary = BlogSummary(id: Id, title: string, commentCount: int32)

  /** One page of a listing: the summaries and the token for the next page
      ("" when there is none). */
  datatype Page = Page(summaries: seq<BlogSummary>, nextToken: string)

  /** Which of the storage layer's error returns produced an error. */
  datatype ErrorTag =
    | BlogNotFound
    | CreateFailed
    | GetFailed
    | UpdateFailed
    | RowsAffectedFailed
    | DeleteFailed
    | ListFailed
    | ScanFailed
    | IterationFailed
    | ExistenceCheckFailed
    | AddCommentFailed

  /** A Go `error`: its classification and its `Error()` text. */
  datatype StoreError = StoreError(tag: ErrorTag, message: string)

  /** What a store call returns: a value, or an error and no value. */
  datatype Outcome<T> = Ok(value: T) | Err(error: StoreError)

  /** What listing returns: a page or an error, or a panic from indexing an
      empty slice. */
  datatype ListResult = Listed(outcome: Outcome<Page>) | IndexOutOfRange

  /** The text `fmt.Errorf("<prefix>: %w", cause)` produces. */
  function Wrap(prefix: string, cause: string): (r: string)
    ensures |r| == |prefix| + 2 + |cause|
    ensures r[..|prefix|] == prefix && r[|prefix| + 2..] == cause
    ensures r[|prefix|..|prefix| + 2] == ": "
  {
    prefix + ": " + cause
  }
}

/** The order in which the backend compares identifiers: byte-wise
    lexicographic, with a proper prefix before its extensions. */
module Ids {

  predicate Less(a: string, b: string)
  {
    if a == [] then b != []
    else b != [] && (a[0] < b[0] || (a[0] == b[0] && Less(a[1..], b[1..])))
  }

  lemma {:induction false} Irreflexive(a: string)
    ensures !Less(a, a)
  {
    if a != [] {
      Irreflexive(a[1..]);
    }
  }

  lemma {:induction false} Asymmetric(a: string, b: string)
    requires Less(a, b)
    ensures !Less(b, a)
  {
    if a != [] && a[0] == b[0] {
      Asymmetric(a[1..], b[1..]);
    }
  }

  lemma {:induction false} Transitive(a: string, b: string, c: string)
    requires Less(a, b) && Less(b, c)
    ensures Less(a, c)
  {
    if a != [] && a[0] == b[0] && b[0] == c[0] {
      Transitive(a[1..], b[1..], c[1..]);
    }
  }

  lemma {:induction false} Total(a: string, b: string)
    ensures a == b || Less(a, b) || Less(b, a)
  {
    if a != [] && b != [] && a[0] == b[0] {
      Total(a[1..], b[1..]);
      if a[1..] == b[1..] {
        assert a == [a[0]] + a[1..] && b == [b[0]] + b[1..];
      }
    }
  }
}

=== FILE: paging.dfy ===
/**
  What successive calls of the store's `List` see when a client feeds each
  page's next token into the following call, over a table that does not
  change in between.

  The store makes the id of the probe row (the extra row fetched to detect a
  further page) the next token, and the next page starts strictly after it.
  Pages therefore never repeat a blog and stay in ascending id order, but
  every probe row is missed: with page size k the walk lists indices
  0..k-1, skips k, lists k+1..2k, skips 2k+1, and so on. `ListCorrected`
  makes the last returned row's id the token instead; its walk lists every
  blog exactly once.
 */
module Paging {
  import opened Datastore
  import opened PgStore
  import opened Backend
  import Ids

  function Summary(p: Post): BlogSummary
    requires |p.comments| <= MaxInt32
  {
    BlogSummary(p.id, p.title, |p.comments| as int32)
  }

  function Summaries(ps: seq<Post>): (r: seq<BlogSummary>)
    requires CountsFit(ps)
    ensures |r| == |ps| && forall i :: 0 <= i < |ps| ==> r[i] == Summary(ps[i])
  {
    seq(|ps|, i requires 0 <= i < |ps| => Summary(ps[i]))
  }

  lemma SummariesAppend(a: seq<Post>, b: seq<Post>)
    requires CountsFit(a) && CountsFit(b)
    ensures CountsFit(a + b) && Summaries(a + b) == Summaries(a) + Summaries(b)
  {
    assert CountsFit(a + b) by {
      forall i | 0 <= i < |a + b|
        ensures |(a + b)[i].comments| <= MaxInt32
      {
        if i >= |a| { assert (a + b)[i] == b[i - |a|]; }
      }
    }
  }

  // ------------------------------------------------------------ the candidates are a suffix

  /** How many leading rows are not after `token`. */
  function FirstAbove(posts: seq<Post>, token: string): (j: nat)
    ensures j <= |posts|
  {
    if posts == [] || Ids.Less(token, posts[0].id) then 0
    else 1 + FirstAbove(posts[1..], token)
  }

  lemma {:induction false} AllAbove(posts: seq<Post>, token: string)
    requires forall i :: 0 <= i < |posts| ==> Ids.Less(token, posts[i].id)
    ensures Above(posts, token) == posts
  {
    if posts != [] {
      AllAbove(posts[1..], token);
      assert posts == [posts[0]] + posts[1..];
    }
  }

  /** On a sorted table `WHERE b.id > token` keeps a suffix. */
  lemma {:induction false} AboveIsSuffix(posts: seq<Post>, token: string)
    requires Sorted(posts)
    ensures Above(posts, token) == posts[FirstAbove(posts, token)..]
  {
    if posts != [] {
      if Ids.Less(token, posts[0].id) {
        forall i | 0 <= i < |posts|
          ensures Ids.Less(token, posts[i].id)
        {
          if i > 0 { Ids.Transitive(token, posts[0].id, posts[i].id); }
        }
        AllAbove(posts, token);
      } else {
        AboveIsSuffix(posts[1..], token);
      }
    }
  }

  /** The rows after the i-th row's id start at row i + 1. */
  lemma {:induction false} FirstAboveOfRow(posts: seq<Post>, i: nat)
    requires Sorted(posts) && i < |posts|
    ensures FirstAbove(posts, posts[i].id) == i + 1
  {
    if i == 0 {
      Ids.Irreflexive(posts[0].id);
      if |posts| > 1 {
        assert posts[1..][0] == posts[1];
      }
    } else {
      Ids.Asymmetric(posts[0].id, posts[i].id);
      assert posts[1..][i - 1] == posts[i];
      FirstAboveOfRow(posts[1..], i - 1);
    }
  }

  /** Where the listing query's candidates start. */
  function Start(posts: seq<Post>, token: string): nat
  {
    if token == "" then 0 else FirstAbove(posts, token)
  }

  lemma CandidatesSuffix(posts: seq<Post>, token: string)
    requires Sorted(posts)
    ensures Start(posts, token) <= |posts|
    ensures Candidates(posts, token) == posts[Start(posts, token)..]
  {
    if token != "" { AboveIsSuffix(posts, token); }
  }

  /** A token equal to the id of row i leaves the rows after i. */
  lemma CandidatesAfterRow(posts: seq<Post>, i: nat)
    requires Valid(posts) && i < |posts|
    ensures Candidates(posts, posts[i].id) == posts[i + 1..]
  {
    FirstAboveOfRow(posts, i);
    CandidatesSuffix(posts, posts[i].id);
  }

  // ------------------------------------------------------------ one page

  /** The page the listing should produce from the candidates: the first
      `pageSize` of them, and the id of the next candidate (the probe row)
      as the token when there is one. */
  function ProbePage(c: seq<Post>, pageSize: nat): (p: Page)
    requires CountsFit(c)
  {
    if |c| > pageSize then Page(Summaries(c[..pageSize]), c[pageSize].id)
    else Page(Summaries(c), "")
  }

  /** The table's reply to the listing statement the store builds. */
  lemma ListReply(posts: seq<Post>, pageSize: int32, token: string)
    requires Valid(posts) && 0 <= pageSize as int < MaxInt32
    ensures RunListBlogs(posts, ListStatement(pageSize, token)) ==
      Rows(SummaryRows(Take(Candidates(posts, token), pageSize as int + 1)), None)
  {
    var s := ListStatement(pageSize, token);
    assert AddWrap32(pageSize, 1) as int == pageSize as int + 1;
    assert token != "" ==> TextArg(s.args, 1) == Some(token);
  }

  lemma ScanSummaryRows(ps: seq<Post>)
    requires CountsFit(ps)
    ensures ScanRows(SummaryRows(ps)) == Some(Summaries(ps))
  {
    var rows := SummaryRows(ps);
    assert forall i :: 0 <= i < |rows| ==> InInt32(rows[i].commentCount);
    var v := ScanRows(rows).value;
    forall i | 0 <= i < |ps|
      ensures v[i] == Summaries(ps)[i]
    {
    }
    assert v == Summaries(ps);
  }

  lemma CandidatesFit(posts: seq<Post>, token: string)
    requires Valid(posts)
    ensures CountsFit(Candidates(posts, token))
  {
    CandidatesSuffix(posts, token);
  }

  /** On a valid table, with a page size whose `+ 1` does not wrap, `List`
      returns the first `pageSize` candidates and, when a further candidate
      exists, that probe row's id as the next token. */
  lemma ListOnPage(posts: seq<Post>, pageSize: int32, token: string)
    requires Valid(posts) && 0 <= pageSize as int < MaxInt32
    ensures CountsFit(Candidates(posts, token))
    ensures ListOn(posts, pageSize, token).result == Listed(Ok(ProbePage(Candidates(posts, token), pageSize as int)))
  {
    var c := Candidates(posts, token);
    CandidatesFit(posts, token);
    var fetched := Take(c, pageSize as int + 1);
    ListReply(posts, pageSize, token);
    ListOfSummaryRows(pageSize, token, fetched);
    TrimProbeOfFetched(pageSize, c);
  }

  /** `List` on the rows of some table rows, without an iteration error,
      trims the probe from their summaries. */
  lemma ListOfSummaryRows(pageSize: int32, token: string, ps: seq<Post>)
    requires CountsFit(ps)
    ensures List(pageSize, token, Rows(SummaryRows(ps), None)).result == TrimProbe(pageSize, Summaries(ps))
  {
    ScanSummaryRows(ps);
  }

  /** Trimming the probe from the first `pageSize + 1` candidates gives the
      candidates' page. */
  lemma TrimProbeOfFetched(pageSize: int32, c: seq<Post>)
    requires CountsFit(c) && 0 <= pageSize as int < MaxInt32
    ensures CountsFit(Take(c, pageSize as int + 1))
    ensures TrimProbe(pageSize, Summaries(Take(c, pageSize as int + 1))) == Listed(Ok(ProbePage(c, pageSize as int)))
  {
    var k := pageSize as int;
    var fetchedPosts := Take(c, k + 1);
    var fetched := Summaries(fetchedPosts);
    if |c| > k {
      assert fetched[..|fetched| - 1] == Summaries(c[..k]);
    } else {
      assert fetchedPosts == c;
    }
  }

  /** At the largest int32 page size `pageSize + 1` wraps to the smallest
      int32, the database refuses the negative LIMIT, and `List` fails. */
  lemma ListAtInt32Max(posts: seq<Post>, token: string)
    ensures var call := ListOn(posts, MaxInt32 as int32, token);
      && call.statement.args[call.statement.limitParam - 1] == Int(MinInt32 as int32)
      && call.result == Listed(Err(StoreError(ListFailed, Wrap("failed to list blogs", NegativeLimitText))))
  {
    assert AddWrap32(MaxInt32 as int32, 1) as int == MinInt32;
  }

  /** The store as written, on a valid table, never fails or panics for a
      page size from 0 up to, but not including, the int32 maximum. */
  lemma ListOnSucceeds(posts: seq<Post>, pageSize: int32, token: string)
    requires Valid(posts) && 0 <= pageSize as int < MaxInt32
    ensures ListOn(posts, pageSize, token).result.Listed?
    ensures ListOn(posts, pageSize, token).result.outcome.Ok?
  {
    ListOnPage(posts, pageSize, token);
  }

  /** Ids of a list of summaries. */
  function IdsOf(s: seq<BlogSummary>): (r: seq<Id>)
    ensures |r| == |s| && forall i :: 0 <= i < |s| ==> r[i] == s[i].id
  {
    seq(|s|, i requires 0 <= i < |s| => s[i].id)
  }

  /** Ids strictly ascending. */
  ghost predicate Ascending(w: seq<BlogSummary>)
  {
    forall i, j :: 0 <= i < j < |w| ==> Ids.Less(w[i].id, w[j].id)
  }

  /** One page, as written (the page `ListOnPage` shows `List` returns):
      its ids ascend and lie after the token, and the next token, when there
      is one, is the id of a stored blog that lies after every returned id
      and is not itself returned. */
  lemma PageShape(posts: seq<Post>, pageSize: nat, token: string)
    requires Valid(posts)
    ensures CountsFit(Candidates(posts, token))
    ensures var page := ProbePage(Candidates(posts, token), pageSize);
      && |page.summaries| <= pageSize
      && Ascending(page.summaries)
      && (token != "" ==> forall i :: 0 <= i < |page.summaries| ==> Ids.Less(token, page.summaries[i].id))
      && (page.nextToken != "" ==>
            && HasId(posts, page.nextToken)
            && page.nextToken !in IdsOf(page.summaries)
            && forall i :: 0 <= i < |page.summaries| ==> Ids.Less(page.summaries[i].id, page.nextToken))
  {
    CandidatesSuffix(posts, token);
    var c := Candidates(posts, token);
    var st := Start(posts, token);
    SortedSuffix(posts, st);
    ProbePageShape(c, pageSize);
    var page := ProbePage(c, pageSize);
    if token != "" {
      forall i | 0 <= i < |page.summaries|
        ensures Ids.Less(token, page.summaries[i].id)
      {
        assert c[i] in Above(posts, token);
      }
    }
    if page.nextToken != "" {
      assert posts[st + pageSize] == c[pageSize];
    }
  }

  lemma SortedSuffix(posts: seq<Post>, st: nat)
    requires Sorted(posts) && st <= |posts|
    ensures Sorted(posts[st..])
  {
    var c := posts[st..];
    forall i, j | 0 <= i < j < |c|
      ensures Ids.Less(c[i].id, c[j].id)
    {
      assert c[i] == posts[st + i] && c[j] == posts[st + j];
    }
  }

  /** The page of a sorted run of candidates: their first summaries in
      order, and a next token that is the id of the probe row, after every
      returned id and not among them. */
  lemma ProbePageShape(c: seq<Post>, pageSize: nat)
    requires Sorted(c) && CountsFit(c)
    ensures var page := ProbePage(c, pageSize);
      && |page.summaries| <= pageSize
      && (forall i :: 0 <= i < |page.summaries| ==> page.summaries[i] == Summary(c[i]))
      && Ascending(page.summaries)
      && (page.nextToken != "" ==>
            && |c| > pageSize && page.nextToken == c[pageSize].id
            && page.nextToken !in IdsOf(page.summaries)
            && forall i :: 0 <= i < |page.summaries| ==> Ids.Less(page.summaries[i].id, page.nextToken))
  {
    var page := ProbePage(c, pageSize);
    if page.nextToken != "" {
      forall i | 0 <= i < |page.summaries|
        ensures page.nextToken != IdsOf(page.summaries)[i]
      {
        Ids.Irreflexive(page.nextToken);
      }
    }
  }

  /** The paging defect in two steps: the first page's token is the id of row
      k, the second page starts strictly after it, so row k is on neither
      page and everything on the second page lies after it. */
  lemma ProbeRowSkipped(posts: seq<Post>, pageSize: nat)
    requires Valid(posts) && |posts| > pageSize
    ensures CountsFit(posts)
    ensures var first := ProbePage(posts, pageSize);
      && first.nextToken == posts[pageSize].id
      && CountsFit(Candidates(posts, first.nextToken))
      && var second := ProbePage(Candidates(posts, first.nextToken), pageSize);
      && posts[pageSize].id !in IdsOf(first.summaries)
      && posts[pageSize].id !in IdsOf(second.summaries)
      && forall i :: 0 <= i < |second.summaries| ==> Ids.Less(posts[pageSize].id, second.summaries[i].id)
  {
    PageShape(posts, pageSize, "");
    assert Candidates(posts, "") == posts;
    var first := ProbePage(posts, pageSize);
    PageShape(posts, pageSize, first.nextToken);
    var second := ProbePage(Candidates(posts, first.nextToken), pageSize);
    forall i | 0 <= i < |second.summaries|
      ensures posts[pageSize].id != IdsOf(second.summaries)[i]
    {
      Ids.Irreflexive(posts[pageSize].id);
    }
  }

  /** Two consecutive pages share no blog, and the second continues the
      ascending order of the first. */
  lemma ConsecutivePagesAscend(posts: seq<Post>, pageSize: nat, token: string)
    requires Valid(posts)
    ensures CountsFit(Candidates(posts, token))
    ensures var first := ProbePage(Candidates(posts, token), pageSize);
      first.nextToken != "" ==>
        && CountsFit(Candidates(posts, first.nextToken))
        && var second := ProbePage(Candidates(posts, first.nextToken), pageSize);
        && forall i, j :: 0 <= i < |first.summaries| && 0 <= j < |second.summaries| ==>
             Ids.Less(first.summaries[i].id, second.summaries[j].id)
  {
    PageShape(posts, pageSize, token);
    var first := ProbePage(Candidates(posts, token), pageSize);
    if first.nextToken != "" {
      PageShape(posts, pageSize, first.nextToken);
      var second := ProbePage(Candidates(posts, first.nextToken), pageSize);
      forall i, j | 0 <= i < |first.summaries| && 0 <= j < |second.summaries|
        ensures Ids.Less(first.summaries[i].id, second.summaries[j].id)
      {
        Ids.Transitive(first.summaries[i].id, first.nextToken, second.summaries[j].id);
      }
    }
  }

  /** The smallest case: blogs "a" and "b", page size 1. The first page is
      [a] with token "b"; the page for token "b" is empty, so "b" is never
      listed. */
  lemma TwoBlogsPageSizeOne(a: Post, b: Post)
    requires a.id == "a" && b.id == "b"
    requires |a.comments| <= MaxInt32 && |b.comments| <= MaxInt32
    ensures ListOn([a, b], 1, "").result == Listed(Ok(Page([Summary(a)], "b")))
    ensures ListOn([a, b], 1, "b").result == Listed(Ok(Page([], "")))
  {
    TwoBlogsFirstPage(a, b);
    TwoBlogsSecondPage(a, b);
  }

  lemma TwoBlogsValid(a: Post, b: Post)
    requires a.id == "a" && b.id == "b"
    requires |a.comments| <= MaxInt32 && |b.comments| <= MaxInt32
    ensures Valid([a, b])
  {
    assert Ids.Less("a", "b");
  }

  lemma TwoBlogsFirstPage(a: Post, b: Post)
    requires a.id == "a" && b.id == "b"
    requires |a.comments| <= MaxInt32 && |b.comments| <= MaxInt32
    ensures ListOn([a, b], 1, "").result == Listed(Ok(Page([Summary(a)], "b")))
  {
    TwoBlogsValid(a, b);
    ListOnPage([a, b], 1, "");
    assert Candidates([a, b], "") == [a, b];
    assert [a, b][..1] == [a];
  }

  lemma TwoBlogsSecondPage(a: Post, b: Post)
    requires a.id == "a" && b.id == "b"
    requires |a.comments| <= MaxInt32 && |b.comments| <= MaxInt32
    ensures ListOn([a, b], 1, "b").result == Listed(Ok(Page([], "")))
  {
    TwoBlogsValid(a, b);
    ListOnPage([a, b], 1, "b");
    CandidatesAfterRow([a, b], 1);
    assert Candidates([a, b], "b") == [];
  }

  // ------------------------------------------------------------ walking all pages, as written

  /** Pages of `k` rows, each followed by one skipped row. */
  function SkipEvery(s: seq<Post>, k: nat): seq<BlogSummary>
    requires CountsFit(s)
    decreases |s|
  {
    if |s| <= k then Summaries(s) else Summaries(s[..k]) + SkipEvery(s[k + 1..], k)
  }

  lemma SkipEveryStep(c: seq<Post>, k: nat)
    requires CountsFit(c) && |c| > k
    ensures CountsFit(c[k + 1..])
    ensures SkipEvery(c, k) == Summaries(c[..k]) + SkipEvery(c[k + 1..], k)
  {
  }

  /** When candidates remain after a page, the token is the probe row's id
      and the candidates after it are the rows after the probe row. */
  lemma ProbeRowIsToken(posts: seq<Post>, pageSize: nat, token: string)
    requires Valid(posts) && |Candidates(posts, token)| > pageSize
    ensures CountsFit(Candidates(posts, token))
    ensures var c := Candidates(posts, token);
      && c[pageSize].id != ""
      && Candidates(posts, c[pageSize].id) == c[pageSize + 1..]
  {
    CandidatesSuffix(posts, token);
    var c := Candidates(posts, token);
    var st := Start(posts, token);
    CandidatesAfterRow(posts, st + pageSize);
    assert c[pageSize] == posts[st + pageSize];
  }

  /** How the pages of the as-written `List` continue after a token: the
      page, then `SkipEvery` of the rows after its probe row. */
  lemma PageThenRest(posts: seq<Post>, pageSize: nat, token: string)
    requires Valid(posts) && pageSize >= 1
    ensures CountsFit(Candidates(posts, token))
    ensures var page := ProbePage(Candidates(posts, token), pageSize);
      && (page.nextToken == "" ==> page.summaries == SkipEvery(Candidates(posts, token), pageSize))
      && (page.nextToken != "" ==>
            && |Candidates(posts, page.nextToken)| < |Candidates(posts, token)|
            && CountsFit(Candidates(posts, page.nextToken))
            && page.summaries + SkipEvery(Candidates(posts, page.nextToken), pageSize) ==
               SkipEvery(Candidates(posts, token), pageSize))
  {
    CandidatesFit(posts, token);
    var c := Candidates(posts, token);
    var page := ProbePage(c, pageSize);
    if |c| > pageSize {
      ProbeRowIsToken(posts, pageSize, token);
      SkipEveryStep(c, pageSize);
      assert page.summaries == Summaries(c[..pageSize]);
    } else {
      assert page == Page(Summaries(c), "");
      assert SkipEvery(c, pageSize) == Summaries(c);
    }
  }

  /** One request of a client listing every page: what `List` returns for
      the current token, and how the remaining pages continue from its next
      token. */
  method NextPage(posts: seq<Post>, pageSize: int32, token: string) returns (page: Page)
    requires Valid(posts) && 1 <= pageSize as int < MaxInt32
    ensures ListOn(posts, pageSize, token).result == Listed(Ok(page))
    ensures CountsFit(Candidates(posts, token))
    ensures page.nextToken == "" ==> page.summaries == SkipEvery(Candidates(posts, token), pageSize as int)
    ensures page.nextToken != "" ==>
      && |Candidates(posts, page.nextToken)| < |Candidates(posts, token)|
      && CountsFit(Candidates(posts, page.nextToken))
      && page.summaries + SkipEvery(Candidates(posts, page.nextToken), pageSize as int) ==
         SkipEvery(Candidates(posts, token), pageSize as int)
  {
    ListOnPage(posts, pageSize, token);
    PageThenRest(posts, pageSize as int, token);
    var call := ListOn(posts, pageSize, token);
    page := call.result.outcome.value;
  }

  lemma ConcatAssoc<T>(a: seq<T>, b: seq<T>, c: seq<T>)
    ensures (a + b) + c == a + (b + c)
  {
  }

  /** A client that lists every page: it starts without a token and feeds
      each next token back into the store's `List` until the token is empty.
      Against the as-written store it collects exactly "k rows, skip one,
      k rows, skip one, ...". */
  method ListAllPages(posts: seq<Post>, pageSize: int32) returns (listed: seq<BlogSummary>)
    requires Valid(posts) && 1 <= pageSize as int < MaxInt32
    ensures CountsFit(posts)
    ensures listed == SkipEvery(posts, pageSize as int)
    ensures forall i :: 0 <= i < |posts| ==>
      (Summary(posts[i]) in listed <==> !IsProbeIndex(pageSize as int, i))
    ensures |posts| > pageSize as int ==> posts[pageSize].id !in IdsOf(listed)
    ensures forall i, j :: 0 <= i < j < |listed| ==>
      Ids.Less(listed[i].id, listed[j].id) && listed[i].id != listed[j].id
  {
    var k := pageSize as int;
    var token := "";
    var done := false;
    listed := [];
    CandidatesFit(posts, token);
    ghost var all := SkipEvery(posts, k);
    while !done
      invariant CountsFit(Candidates(posts, token))
      invariant !done ==> listed + SkipEvery(Candidates(posts, token), k) == all
      invariant done ==> listed == all
      decreases if done then 0 else 1 + |Candidates(posts, token)|
    {
      var page := NextPage(posts, pageSize, token);
      if page.nextToken == "" {
        listed := listed + page.summaries;
        done := true;
      } else {
        ConcatAssoc(listed, page.summaries, SkipEvery(Candidates(posts, page.nextToken), k));
        listed := listed + page.summaries;
        token := page.nextToken;
      }
    }
    SkipEveryShape(posts, k);
  }

  /** Row `i` of a `SkipEvery` input is a probe row: k, 2k+1, 3k+2, ... */
  predicate IsProbeIndex(k: nat, i: nat)
  {
    if i < k then false else if i == k then true else IsProbeIndex(k, i - (k + 1))
  }

  /** A summary is in `SkipEvery(s, k)` exactly when it is the summary of a
      row that is not a probe row. */
  lemma {:induction false} SkipEveryMembers(s: seq<Post>, k: nat)
    requires CountsFit(s)
    ensures forall x :: x in SkipEvery(s, k) <==>
      exists i :: 0 <= i < |s| && !IsProbeIndex(k, i) && x == Summary(s[i])
    decreases |s|
  {
    if |s| <= k {
      forall x
        ensures x in SkipEvery(s, k) <==> exists i :: 0 <= i < |s| && !IsProbeIndex(k, i) && x == Summary(s[i])
      {
        if x in SkipEvery(s, k) {
          var i :| 0 <= i < |s| && Summaries(s)[i] == x;
          assert !IsProbeIndex(k, i);
        }
      }
    } else {
      var rest := s[k + 1..];
      SkipEveryMembers(rest, k);
      SummariesAppend(s[..k], []);
      forall x
        ensures x in SkipEvery(s, k) <==> exists i :: 0 <= i < |s| && !IsProbeIndex(k, i) && x == Summary(s[i])
      {
        if x in Summaries(s[..k]) {
          var i :| 0 <= i < k && Summaries(s[..k])[i] == x;
          assert !IsProbeIndex(k, i) && x == Summary(s[i]);
        } else if x in SkipEvery(rest, k) {
          var j :| 0 <= j < |rest| && !IsProbeIndex(k, j) && x == Summary(rest[j]);
          assert IsProbeIndex(k, j + k + 1) == IsProbeIndex(k, j);
          assert !IsProbeIndex(k, j + k + 1) && x == Summary(s[j + k + 1]);
        }
        if exists i :: 0 <= i < |s| && !IsProbeIndex(k, i) && x == Summary(s[i]) {
          var i :| 0 <= i < |s| && !IsProbeIndex(k, i) && x == Summary(s[i]);
          if i < k {
            assert Summaries(s[..k])[i] == x;
          } else {
            assert i > k;
            assert IsProbeIndex(k, i) == IsProbeIndex(k, i - k - 1);
            assert rest[i - k - 1] == s[i];
          }
        }
      }
    }
  }

  /** `SkipEvery` of a sorted table keeps exactly the rows at non-probe
      positions; in particular row k, the first probe row, is missing. */
  lemma SkipEveryOmitsProbeRows(s: seq<Post>, k: nat)
    requires Sorted(s) && CountsFit(s)
    ensures forall i :: 0 <= i < |s| ==> (Summary(s[i]) in SkipEvery(s, k) <==> !IsProbeIndex(k, i))
    ensures |s| > k ==> s[k].id !in IdsOf(SkipEvery(s, k))
  {
    SkipEveryMembers(s, k);
    var w := SkipEvery(s, k);
    forall i | 0 <= i < |s|
      ensures Summary(s[i]) in w <==> !IsProbeIndex(k, i)
    {
      if Summary(s[i]) in w {
        var j :| 0 <= j < |s| && !IsProbeIndex(k, j) && Summary(s[i]) == Summary(s[j]);
        SameIdSameRow(s, i, j);
      }
    }
    if |s| > k {
      forall m | 0 <= m < |w|
        ensures w[m].id != s[k].id
      {
        assert w[m] in w;
        var j :| 0 <= j < |s| && !IsProbeIndex(k, j) && w[m] == Summary(s[j]);
        if w[m].id == s[k].id {
          SameIdSameRow(s, j, k);
        }
      }
    }
  }

  lemma SameIdSameRow(posts: seq<Post>, i: nat, j: nat)
    requires Sorted(posts) && i < |posts| && j < |posts|
    requires posts[i].id == posts[j].id
    ensures i == j
  {
    if i < j || j < i {
      Ids.Irreflexive(posts[i].id);
    }
  }

  /** A lower bound on a table's ids bounds the ids `SkipEvery` lists. */
  lemma SkipEveryBounded(s: seq<Post>, k: nat, low: string)
    requires CountsFit(s)
    requires forall i :: 0 <= i < |s| ==> Ids.Less(low, s[i].id)
    ensures forall x :: x in SkipEvery(s, k) ==> Ids.Less(low, x.id)
  {
    SkipEveryMembers(s, k);
  }

  lemma AscendingConcat(head: seq<BlogSummary>, tail: seq<BlogSummary>)
    requires Ascending(head) && Ascending(tail)
    requires forall i, j :: 0 <= i < |head| && 0 <= j < |tail| ==> Ids.Less(head[i].id, tail[j].id)
    ensures Ascending(head + tail)
  {
    var w := head + tail;
    forall i, j | 0 <= i < j < |w|
      ensures Ids.Less(w[i].id, w[j].id)
    {
      if j < |head| {
        assert w[i] == head[i] && w[j] == head[j];
      } else if i >= |head| {
        assert w[i] == tail[i - |head|] && w[j] == tail[j - |head|];
      } else {
        assert w[i] == head[i] && w[j] == tail[j - |head|];
      }
    }
  }

  lemma SummariesAscend(s: seq<Post>)
    requires Sorted(s) && CountsFit(s)
    ensures Ascending(Summaries(s))
  {
  }

  /** `SkipEvery` of a sorted table lists ids in strictly ascending order. */
  lemma {:induction false} SkipEveryAscends(s: seq<Post>, k: nat)
    requires Sorted(s) && CountsFit(s)
    ensures Ascending(SkipEvery(s, k))
    decreases |s|
  {
    if |s| <= k {
      SummariesAscend(s);
    } else {
      var rest := s[k + 1..];
      SkipEveryAscends(rest, k);
      var head := Summaries(s[..k]);
      SummariesAscend(s[..k]);
      var tail := SkipEvery(rest, k);
      forall i, j | 0 <= i < |head| && 0 <= j < |tail|
        ensures Ids.Less(head[i].id, tail[j].id)
      {
        assert head[i].id == s[i].id;
        assert forall m :: 0 <= m < |rest| ==> rest[m] == s[m + k + 1];
        SkipEveryBounded(rest, k, s[i].id);
        assert tail[j] in tail;
      }
      AscendingConcat(head, tail);
    }
  }

  /** What the as-written walk collects: every row at a non-probe position,
      none at a probe position, ids strictly ascending and never repeated. */
  lemma SkipEveryShape(s: seq<Post>, k: nat)
    requires Sorted(s) && CountsFit(s)
    ensures forall i :: 0 <= i < |s| ==> (Summary(s[i]) in SkipEvery(s, k) <==> !IsProbeIndex(k, i))
    ensures |s| > k ==> s[k].id !in IdsOf(SkipEvery(s, k))
    ensures var w := SkipEvery(s, k);
      forall i, j :: 0 <= i < j < |w| ==> Ids.Less(w[i].id, w[j].id) && w[i].id != w[j].id
  {
    SkipEveryOmitsProbeRows(s, k);
    SkipEveryAscends(s, k);
    var w := SkipEvery(s, k);
    forall i, j | 0 <= i < j < |w|
      ensures w[i].id != w[j].id
    {
      if w[i].id == w[j].id {
        Ids.Irreflexive(w[i].id);
      }
    }
  }

  // ------------------------------------------------------------ walking all pages, corrected

  /** The corrected store run against the table. */
  function ListCorrectedOn(posts: seq<Post>, pageSize: int32, token: string): Listing
  {
    ListCorrected(pageSize, token, RunListBlogs(posts, ListStatement(pageSize, token)))
  }

  /** The page the corrected listing produces from the candidates: the first
      `pageSize` of them and, when more exist, the id of the last one kept. */
  function LastRowPage(c: seq<Post>, pageSize: nat): (p: Page)
    requires CountsFit(c) && pageSize >= 1
  {
    if |c| > pageSize then Page(Summaries(c[..pageSize]), c[pageSize - 1].id)
    else Page(Summaries(c), "")
  }

  lemma TrimCorrectedOfFetched(pageSize: int32, c: seq<Post>)
    requires CountsFit(c) && 1 <= pageSize as int < MaxInt32
    ensures CountsFit(Take(c, pageSize as int + 1))
    ensures TrimProbeCorrected(pageSize, Summaries(Take(c, pageSize as int + 1))) ==
      Listed(Ok(LastRowPage(c, pageSize as int)))
  {
    var k := pageSize as int;
    var fetchedPosts := Take(c, k + 1);
    var fetched := Summaries(fetchedPosts);
    if |c| > k {
      assert fetched[..k] == Summaries(c[..k]);
    } else {
      assert fetchedPosts == c;
    }
  }

  lemma ListCorrectedOfSummaryRows(pageSize: int32, token: string, ps: seq<Post>)
    requires CountsFit(ps)
    ensures ListCorrected(pageSize, token, Rows(SummaryRows(ps), None)).result ==
      TrimProbeCorrected(pageSize, Summaries(ps))
  {
    ScanSummaryRows(ps);
  }

  /** On a valid table the corrected `List` returns the first `pageSize`
      candidates and, when more exist, the last returned id as the token. */
  lemma ListCorrectedOnPage(posts: seq<Post>, pageSize: int32, token: string)
    requires Valid(posts) && 1 <= pageSize as int < MaxInt32
    ensures CountsFit(Candidates(posts, token))
    ensures ListCorrectedOn(posts, pageSize, token).result ==
      Listed(Ok(LastRowPage(Candidates(posts, token), pageSize as int)))
  {
    var c := Candidates(posts, token);
    CandidatesFit(posts, token);
    ListReply(posts, pageSize, token);
    ListCorrectedOfSummaryRows(pageSize, token, Take(c, pageSize as int + 1));
    TrimCorrectedOfFetched(pageSize, c);
  }

  /** The correction changes only the token: both stores return the same
      summaries for the same request. */
  lemma CorrectionKeepsRows(posts: seq<Post>, pageSize: int32, token: string)
    requires Valid(posts) && 1 <= pageSize as int < MaxInt32
    ensures ListOn(posts, pageSize, token).result.Listed?
    ensures ListOn(posts, pageSize, token).result.outcome.Ok?
    ensures ListCorrectedOn(posts, pageSize, token).result.Listed?
    ensures ListCorrectedOn(posts, pageSize, token).result.outcome.Ok?
    ensures ListCorrectedOn(posts, pageSize, token).result.outcome.value.summaries ==
      ListOn(posts, pageSize, token).result.outcome.value.summaries
  {
    ListOnPage(posts, pageSize, token);
    ListCorrectedOnPage(posts, pageSize, token);
  }

  /** With the corrected token, the candidates after it are exactly the
      candidates the page did not return. */
  lemma LastRowIsToken(posts: seq<Post>, pageSize: nat, token: string)
    requires Valid(posts) && pageSize >= 1 && |Candidates(posts, token)| > pageSize
    ensures CountsFit(Candidates(posts, token))
    ensures var c := Candidates(posts, token);
      && c[pageSize - 1].id != ""
      && Candidates(posts, c[pageSize - 1].id) == c[pageSize..]
  {
    CandidatesSuffix(posts, token);
    var c := Candidates(posts, token);
    var st := Start(posts, token);
    CandidatesAfterRow(posts, st + pageSize - 1);
    assert c[pageSize - 1] == posts[st + pageSize - 1];
  }

  /** How the corrected pages continue after a token: the page, then the
      summaries of all candidates after its next token, with nothing lost. */
  lemma CorrectedPageThenRest(posts: seq<Post>, pageSize: nat, token: string)
    requires Valid(posts) && pageSize >= 1
    ensures CountsFit(Candidates(posts, token))
    ensures var page := LastRowPage(Candidates(posts, token), pageSize);
      && (page.nextToken == "" ==> page.summaries == Summaries(Candidates(posts, token)))
      && (page.nextToken != "" ==>
            && |Candidates(posts, page.nextToken)| < |Candidates(posts, token)|
            && CountsFit(Candidates(posts, page.nextToken))
            && page.summaries + Summaries(Candidates(posts, page.nextToken)) ==
               Summaries(Candidates(posts, token)))
  {
    CandidatesFit(posts, token);
    var c := Candidates(posts, token);
    var page := LastRowPage(c, pageSize);
    if |c| > pageSize {
      LastRowIsToken(posts, pageSize, token);
      assert page.nextToken == c[pageSize - 1].id;
      SummariesSplit(c, pageSize);
      assert page.summaries == Summaries(c[..pageSize]);
    } else {
      assert page == Page(Summaries(c), "");
    }
  }

  lemma SummariesSplit(c: seq<Post>, k: nat)
    requires CountsFit(c) && k <= |c|
    ensures CountsFit(c[..k]) && CountsFit(c[k..])
    ensures Summaries(c[..k]) + Summaries(c[k..]) == Summaries(c)
  {
    SummariesAppend(c[..k], c[k..]);
    assert c[..k] + c[k..] == c;
  }

  /** One request of a client listing every page from the corrected store. */
  method NextPageCorrected(posts: seq<Post>, pageSize: int32, token: string) returns (page: Page)
    requires Valid(posts) && 1 <= pageSize as int < MaxInt32
    ensures ListCorrectedOn(posts, pageSize, token).result == Listed(Ok(page))
    ensures CountsFit(Candidates(posts, token))
    ensures page.nextToken == "" ==> page.summaries == Summaries(Candidates(posts, token))
    ensures page.nextToken != "" ==>
      && |Candidates(posts, page.nextToken)| < |Candidates(posts, token)|
      && CountsFit(Candidates(posts, page.nextToken))
      && page.summaries + Summaries(Candidates(posts, page.nextToken)) == Summaries(Candidates(posts, token))
  {
    ListCorrectedOnPage(posts, pageSize, token);
    CorrectedPageThenRest(posts, pageSize as int, token);
    var call := ListCorrectedOn(posts, pageSize, token);
    page := call.result.outcome.value;
  }

  /** The same client against the corrected store lists every blog exactly
      once, in id order. */
  method ListAllPagesCorrected(posts: seq<Post>, pageSize: int32) returns (listed: seq<BlogSummary>)
    requires Valid(posts) && 1 <= pageSize as int < MaxInt32
    ensures CountsFit(posts)
    ensures listed == Summaries(posts)
  {
    var token := "";
    var done := false;
    listed := [];
    CandidatesFit(posts, token);
    ghost var all := Summaries(posts);
    while !done
      invariant CountsFit(Candidates(posts, token))
      invariant !done ==> listed + Summaries(Candidates(posts, token)) == all
      invariant done ==> listed == all
      decreases if done then 0 else 1 + |Candidates(posts, token)|
    {
      var page := NextPageCorrected(posts, pageSize, token);
      if page.nextToken == "" {
        listed := listed + page.summaries;
        done := true;
      } else {
        ConcatAssoc(listed, page.summaries, Summaries(Candidates(posts, page.nextToken)));
        listed := listed + page.summaries;
        token := page.nextToken;
      }
    }
  }
}

=== FILE: pg_store.dfy ===
/**
  The PostgreSQL store as pure functions. Each operation builds the
  parameterised statements it issues and shapes the driver's replies into a
  result or a classified error. The driver's replies are parameters; what a
  real table would answer is given by module Backend.
 */
module PgStore {
  import opened Datastore

  /** A value bound to a numbered placeholder `$1`, `$2`, ... */
  datatype Arg = Text(text: string) | Int(n: int32)

  datatype Column = TitleColumn | ContentColumn

  /** One ` <column> = $<param>` part of an UPDATE's SET list. */
  datatype Assignment = Assignment(column: Column, param: nat)

  /** The statements the store sends, each with its placeholder layout and its
      argument list (`args[i]` binds `$(i+1)`). */
  datatype Statement =
    | InsertBlog(args: seq<Arg>)       // INSERT INTO blogs (id, title, content) VALUES ($1, $2, $3)
    | SelectBlog(args: seq<Arg>)       // SELECT ... FROM blogs WHERE id = $1
    | UpdateBlog(sets: seq<Assignment>, idParam: nat, args: seq<Arg>)
    | DeleteBlog(args: seq<Arg>)       // DELETE FROM blogs WHERE id = $1
    | ListBlogs(boundParam: Option<nat>, limitParam: nat, args: seq<Arg>)
    | CheckBlog(args: seq<Arg>)        // SELECT 1 FROM blogs WHERE id = $1
    | InsertComment(args: seq<Arg>)    // INSERT INTO comments (id, blog_id, content, author) VALUES ($1..$4)

  /** The driver's answer to an Exec: the call failed, the affected-row count
      could not be read, or the count. */
  datatype ExecReply = ExecFailed(cause: string) | AffectedUnknown(cause: string) | Executed(affected: int)

  /** The driver's answer to a single-row query, after Scan. */
  datatype RowReply<R> = Found(row: R) | NoRows | QueryFailed(cause: string)

  datatype BlogRow = BlogRow(id: Id, title: string, content: string, createdAt: Timestamp, updatedAt: Timestamp)

  /** A row of the listing query; COUNT(c.id) arrives as a 64-bit integer. */
  datatype SummaryRow = SummaryRow(id: Id, title: string, commentCount: int)

  /** The driver's answer to the listing query: the query failed, or the rows
      it produced followed by the iteration error, if any. */
  datatype RowsReply = RowsFailed(cause: string) | Rows(rows: seq<SummaryRow>, iterError: Option<string>)

  /** The statements a call issued and what it returned. */
  datatype Call<T> = Call(issued: seq<Statement>, outcome: Outcome<T>)

  /** The listing statement the store issued and what listing returned. */
  datatype Listing = Listing(statement: Statement, result: ListResult)

  /** Text of `sql.ErrNoRows`. */
  const NoRowsText := "sql: no rows in result set"

  /** Text of the error Scan reports for a count that does not fit in int32. */
  const OutOfRangeText := "converting driver.Value type int64 to a int32: value out of range"

  // ---------------------------------------------------------------- Create

  function CreateStatement(id: Id, title: string, content: string): Statement
  {
    InsertBlog([Text(id), Text(title), Text(content)])
  }

  /** Inserts a blog under the generated id `newId`. */
  function Create(newId: Uuid, title: string, content: string, reply: ExecReply): (r: Call<Id>)
    ensures r.issued == [InsertBlog([Text(newId), Text(title), Text(content)])]
    ensures r.outcome.Ok? <==> !reply.ExecFailed?
    ensures r.outcome.Ok? ==> r.outcome.value == newId && r.outcome.value != ""
    ensures r.outcome.Err? ==> r.outcome.error == StoreError(CreateFailed, Wrap("failed to create blog", reply.cause))
  {
    var issued := [CreateStatement(newId, title, content)];
    match reply
    case ExecFailed(cause) => Call(issued, Err(StoreError(CreateFailed, Wrap("failed to create blog", cause))))
    case _ => Call(issued, Ok(newId))
  }

  // ---------------------------------------------------------------- Get

  function GetStatement(id: Id): Statement
  {
    SelectBlog([Text(id)])
  }

  /** Fetches one blog. No comment query is issued, so the blog comes back
      without comments. */
  function Get(id: Id, reply: RowReply<BlogRow>): (r: Call<Blog>)
    ensures r.issued == [SelectBlog([Text(id)])]
    ensures r.outcome.Ok? <==> reply.Found?
    ensures r.outcome.Ok? ==>
      var b := r.outcome.value;
      && b.id == reply.row.id && b.title == reply.row.title && b.content == reply.row.content
      && b.createdAt == reply.row.createdAt && b.updatedAt == reply.row.updatedAt
      && b.comments == []
    ensures r.outcome.Err? && r.outcome.error.tag == BlogNotFound <==> reply.NoRows?
    ensures reply.NoRows? ==> r.outcome.error.message == Wrap("blog not found", NoRowsText)
    ensures reply.QueryFailed? ==> r.outcome.error == StoreError(GetFailed, Wrap("failed to get blog", reply.cause))
  {
    var issued := [GetStatement(id)];
    match reply
    case NoRows => Call(issued, Err(StoreError(BlogNotFound, Wrap("blog not found", NoRowsText))))
    case QueryFailed(cause) => Call(issued, Err(StoreError(GetFailed, Wrap("failed to get blog", cause))))
    case Found(row) =>
      Call(issued, Ok(Blog(row.id, row.title, row.content, row.createdAt, row.updatedAt, [])))
  }

  // ---------------------------------------------------------------- Update

  /** The arguments of the SET list, title before content, each present only
      when its field is. */
  function FieldArgs(title: Option<string>, content: Option<string>): seq<Arg>
  {
    (if title.Some? then [Text(title.value)] else []) + (if content.Some? then [Text(content.value)] else [])
  }

  function ColumnValue(c: Column, title: Option<string>, content: Option<string>): Option<string>
  {
    match c
    case TitleColumn => title
    case ContentColumn => content
  }

  /** Builds the UPDATE the way the store does: a running placeholder counter
      starting at 1, one assignment per present field, then `WHERE id = $n`
      with the counter's final value. Nothing is built when no field is
      present. */
  function UpdateStatement(id: Id, title: Option<string>, content: Option<string>): (r: Option<Statement>)
    ensures r.None? <==> title.None? && content.None?
    ensures r.Some? ==> r.value.UpdateBlog?
  {
    var (sets1, args1, count1) :=
      if title.Some? then ([Assignment(TitleColumn, 1)], [Text(title.value)], 2) else ([], [], 1);
    var (sets2, args2, count2) :=
      if content.Some? then (sets1 + [Assignment(ContentColumn, count1)], args1 + [Text(content.value)], count1 + 1)
      else (sets1, args1, count1);
    if |sets2| == 0 then None
    else Some(UpdateBlog(sets2, count2, args2 + [Text(id)]))
  }

  /** The placeholders of the built UPDATE line up with its arguments: the
      i-th assignment uses `$i+1` and binds the value of its own column, the
      id is bound by the last placeholder, and a column is assigned exactly
      when its field is present. */
  lemma UpdateStatementLayout(id: Id, title: Option<string>, content: Option<string>)
    requires title.Some? || content.Some?
    ensures var s := UpdateStatement(id, title, content).value;
      && s.args == FieldArgs(title, content) + [Text(id)]
      && s.idParam == |s.args|
      && s.args[s.idParam - 1] == Text(id)
      && |s.sets| == |s.args| - 1
      && (forall i :: 0 <= i < |s.sets| ==> s.sets[i].param == i + 1)
      && (forall i :: 0 <= i < |s.sets| ==>
            ColumnValue(s.sets[i].column, title, content).Some? &&
            s.args[s.sets[i].param - 1] == Text(ColumnValue(s.sets[i].column, title, content).value))
      && (forall c: Column :: ColumnValue(c, title, content).Some? <==>
            exists i :: 0 <= i < |s.sets| && s.sets[i].column == c)
  {
    var s := UpdateStatement(id, title, content).value;
    if title.Some? && content.Some? {
      UpdateBothShape(id, title.value, content.value);
      assert s.sets[0].column == TitleColumn && s.sets[1].column == ContentColumn;
    } else if title.Some? {
      UpdateOneShape(id, title, content);
      assert s.sets[0].column == TitleColumn;
    } else {
      UpdateOneShape(id, title, content);
      assert s.sets[0].column == ContentColumn;
    }
  }

  lemma UpdateBothShape(id: Id, title: string, content: string)
    ensures var s := UpdateStatement(id, Some(title), Some(content)).value;
      && s.sets == [Assignment(TitleColumn, 1), Assignment(ContentColumn, 2)]
      && s.args == [Text(title), Text(content), Text(id)]
      && s.idParam == 3
  {
  }

  lemma UpdateOneShape(id: Id, title: Option<string>, content: Option<string>)
    requires title.Some? != content.Some?
    ensures var s := UpdateStatement(id, title, content).value;
      && s.sets == [Assignment(if title.Some? then TitleColumn else ContentColumn, 1)]
      && s.args == [Text(if title.Some? then title.value else content.value), Text(id)]
      && s.idParam == 2
  {
  }

  /** Classifies the outcome of an Exec that should touch exactly one row:
      zero affected rows means the blog does not exist. */
  function ExecOutcome(failPrefix: string, failTag: ErrorTag, reply: ExecReply): (r: Outcome<()>)
    requires failTag != BlogNotFound
    ensures r.Ok? <==> reply.Executed? && reply.affected != 0
    ensures r.Err? && r.error.tag == BlogNotFound <==> reply == Executed(0)
    ensures reply == Executed(0) ==> r.error.message == "blog not found"
    ensures reply.ExecFailed? ==> r.error == StoreError(failTag, Wrap(failPrefix, reply.cause))
    ensures reply.AffectedUnknown? ==> r.error == StoreError(RowsAffectedFailed, Wrap("failed to get rows affected", reply.cause))
  {
    match reply
    case ExecFailed(cause) => Err(StoreError(failTag, Wrap(failPrefix, cause)))
    case AffectedUnknown(cause) => Err(StoreError(RowsAffectedFailed, Wrap("failed to get rows affected", cause)))
    case Executed(n) => if n == 0 then Err(StoreError(BlogNotFound, "blog not found")) else Ok(())
  }

  /** Updates whichever of title and content are present. With neither present
      it returns success without issuing anything. */
  function Update(id: Id, title: Option<string>, content: Option<string>, reply: ExecReply): (r: Call<()>)
    ensures title.None? && content.None? ==> r.issued == [] && r.outcome == Ok(())
    ensures title.Some? || content.Some? ==>
      && r.issued == [UpdateStatement(id, title, content).value]
      && (r.outcome.Ok? <==> reply.Executed? && reply.affected != 0)
      && (r.outcome.Err? && r.outcome.error.tag == BlogNotFound <==> reply == Executed(0))
      && (reply.ExecFailed? ==> r.outcome.error == StoreError(UpdateFailed, Wrap("failed to update blog", reply.cause)))
      && (reply == Executed(0) ==> r.outcome.error.message == "blog not found")
      && (reply.AffectedUnknown? ==>
            r.outcome.error == StoreError(RowsAffectedFailed, Wrap("failed to get rows affected", reply.cause)))
  {
    match UpdateStatement(id, title, content)
    case None => Call([], Ok(()))
    case Some(s) => Call([s], ExecOutcome("failed to update blog", UpdateFailed, reply))
  }

  // ---------------------------------------------------------------- Delete

  function DeleteStatement(id: Id): Statement
  {
    DeleteBlog([Text(id)])
  }

  /** Deletes a blog; its comments go with it by the schema's cascade. */
  function Delete(id: Id, reply: ExecReply): (r: Call<()>)
    ensures r.issued == [DeleteBlog([Text(id)])]
    ensures r.outcome.Ok? <==> reply.Executed? && reply.affected != 0
    ensures r.outcome.Err? && r.outcome.error.tag == BlogNotFound <==> reply == Executed(0)
    ensures reply.ExecFailed? ==> r.outcome.error == StoreError(DeleteFailed, Wrap("failed to delete blog", reply.cause))
    ensures reply == Executed(0) ==> r.outcome.error.message == "blog not found"
    ensures reply.AffectedUnknown? ==>
      r.outcome.error == StoreError(RowsAffectedFailed, Wrap("failed to get rows affected", reply.cause))
  {
    Call([DeleteStatement(id)], ExecOutcome("failed to delete blog", DeleteFailed, reply))
  }

  // ---------------------------------------------------------------- List

  /** The listing query: `WHERE b.id > $1` only for a non-empty token, and
      `LIMIT $n` bound to `pageSize + 1` computed in int32. */
  function ListStatement(pageSize: int32, token: string): (r: Statement)
    ensures r.ListBlogs?
    ensures token != "" ==> r.boundParam == Some(1) && r.args == [Text(token), Int(AddWrap32(pageSize, 1))]
    ensures token == "" ==> r.boundParam == None && r.args == [Int(AddWrap32(pageSize, 1))]
    ensures r.limitParam == |r.args| && r.args[r.limitParam - 1] == Int(AddWrap32(pageSize, 1))
  {
    var (bound, args, count) := if token != "" then (Some(1), [Text(token)], 2) else (None, [], 1);
    ListBlogs(bound, count, args + [Int(AddWrap32(pageSize, 1))])
  }

  /** Scans the rows in order; the first count that does not fit in int32
      stops the scan. */
  function ScanRows(rows: seq<SummaryRow>): (r: Option<seq<BlogSummary>>)
    ensures r.Some? <==> forall i :: 0 <= i < |rows| ==> InInt32(rows[i].commentCount)
    ensures r.Some? ==> |r.value| == |rows|
    ensures r.Some? ==>
      forall i :: 0 <= i < |rows| ==>
        r.value[i].id == rows[i].id && r.value[i].title == rows[i].title &&
        r.value[i].commentCount as int == rows[i].commentCount
  {
    if rows == [] then Some([])
    else if !InInt32(rows[0].commentCount) then None
    else
      match ScanRows(rows[1..])
      case None => None
      case Some(rest) =>
        Some([BlogSummary(rows[0].id, rows[0].title, rows[0].commentCount as int32)] + rest)
  }

  /** Trims the probe row: when more than `pageSize` summaries were fetched the
      last one is removed and ITS id becomes the next token. */
  function TrimProbe(pageSize: int32, summaries: seq<BlogSummary>): (r: ListResult)
    ensures |summaries| > pageSize as int && summaries == [] <==> r.IndexOutOfRange?
    ensures |summaries| > pageSize as int && summaries != [] ==>
      r == Listed(Ok(Page(summaries[..|summaries| - 1], summaries[|summaries| - 1].id)))
    ensures |summaries| <= pageSize as int ==> r == Listed(Ok(Page(summaries, "")))
  {
    if |summaries| > pageSize as int then
      if summaries == [] then IndexOutOfRange
      else Listed(Ok(Page(summaries[..|summaries| - 1], summaries[|summaries| - 1].id)))
    else Listed(Ok(Page(summaries, "")))
  }

  /** Lists blog summaries after `token`, at most `pageSize` of them. */
  function List(pageSize: int32, token: string, reply: RowsReply): (r: Listing)
    ensures r.statement == ListStatement(pageSize, token)
    ensures reply.RowsFailed? ==> r.result == Listed(Err(StoreError(ListFailed, Wrap("failed to list blogs", reply.cause))))
    ensures r.result.IndexOutOfRange? <==> reply.Rows? && reply.rows == [] && reply.iterError.None? && pageSize < 0
    ensures reply.Rows? && ScanRows(reply.rows).None? ==>
      r.result == Listed(Err(StoreError(ScanFailed, Wrap("failed to scan blog summary", OutOfRangeText))))
    ensures reply.Rows? && ScanRows(reply.rows).Some? && reply.iterError.Some? ==>
      r.result == Listed(Err(StoreError(IterationFailed, Wrap("error iterating blog summaries", reply.iterError.value))))
    ensures (r.result.Listed? && r.result.outcome.Ok?) <==>
      reply.Rows? && reply.iterError.None? && ScanRows(reply.rows).Some? && !(reply.rows == [] && pageSize < 0)
    ensures r.result.Listed? && r.result.outcome.Ok? ==>
      && reply.Rows?
      && var page := r.result.outcome.value;
      && (|reply.rows| <= pageSize as int + 1 ==> |page.summaries| <= pageSize as int)
      && (|reply.rows| > pageSize as int ==>
            |page.summaries| == |reply.rows| - 1 && page.nextToken == reply.rows[|reply.rows| - 1].id)
      && (|reply.rows| <= pageSize as int ==> |page.summaries| == |reply.rows| && page.nextToken == "")
      && (forall i :: 0 <= i < |page.summaries| ==>
            page.summaries[i].id == reply.rows[i].id && page.summaries[i].title == reply.rows[i].title &&
            page.summaries[i].commentCount as int == reply.rows[i].commentCount)
  {
    var statement := ListStatement(pageSize, token);
    match FetchSummaries(reply)
    case Err(e) => Listing(statement, Listed(Err(e)))
    case Ok(summaries) => Listing(statement, TrimProbe(pageSize, summaries))
  }

  /** The rows of the listing query as summaries, or the first error met:
      the query failing, a count that does not fit, or an iteration error. */
  function FetchSummaries(reply: RowsReply): (r: Outcome<seq<BlogSummary>>)
    ensures reply.RowsFailed? ==> r == Err(StoreError(ListFailed, Wrap("failed to list blogs", reply.cause)))
    ensures r.Ok? <==> reply.Rows? && reply.iterError.None? && ScanRows(reply.rows).Some?
    ensures r.Ok? ==> r.value == ScanRows(reply.rows).value
    ensures reply.Rows? && ScanRows(reply.rows).None? ==>
      r == Err(StoreError(ScanFailed, Wrap("failed to scan blog summary", OutOfRangeText)))
    ensures reply.Rows? && ScanRows(reply.rows).Some? && reply.iterError.Some? ==>
      r == Err(StoreError(IterationFailed, Wrap("error iterating blog summaries", reply.iterError.value)))
  {
    match reply
    case RowsFailed(cause) => Err(StoreError(ListFailed, Wrap("failed to list blogs", cause)))
    case Rows(rows, iterError) =>
      match ScanRows(rows)
      case None => Err(StoreError(ScanFailed, Wrap("failed to scan blog summary", OutOfRangeText)))
      case Some(summaries) =>
        if iterError.Some? then Err(StoreError(IterationFailed, Wrap("error iterating blog summaries", iterError.value)))
        else Ok(summaries)
  }

  /** The trim the paging protocol needs: when more than `pageSize`
      summaries were fetched, keep the first `pageSize` and hand out the id
      of the LAST KEPT one, so the next page starts at the probe row. A page
      size of zero or below is left as written. */
  function TrimProbeCorrected(pageSize: int32, summaries: seq<BlogSummary>): (r: ListResult)
    ensures pageSize > 0 ==> r.Listed? && r.outcome.Ok?
    ensures pageSize > 0 && |summaries| > pageSize as int ==>
      var page := r.outcome.value;
      && page.summaries == summaries[..pageSize]
      && page.nextToken == page.summaries[|page.summaries| - 1].id
    ensures |summaries| <= pageSize as int ==> r == Listed(Ok(Page(summaries, "")))
    ensures pageSize <= 0 ==> r == TrimProbe(pageSize, summaries)
  {
    if pageSize > 0 && |summaries| > pageSize as int then
      Listed(Ok(Page(summaries[..pageSize], summaries[pageSize - 1].id)))
    else TrimProbe(pageSize, summaries)
  }

  /** `List` with the corrected trim. */
  function ListCorrected(pageSize: int32, token: string, reply: RowsReply): (r: Listing)
    ensures r.statement == ListStatement(pageSize, token)
    ensures pageSize > 0 ==> !r.result.IndexOutOfRange?
    ensures pageSize > 0 ==>
      ((r.result.Listed? && r.result.outcome.Ok?) <==> reply.Rows? && reply.iterError.None? && ScanRows(reply.rows).Some?)
    ensures List(pageSize, token, reply).result.Listed? && List(pageSize, token, reply).result.outcome.Err? ==>
      r.result == List(pageSize, token, reply).result
  {
    var statement := ListStatement(pageSize, token);
    match FetchSummaries(reply)
    case Err(e) => Listing(statement, Listed(Err(e)))
    case Ok(summaries) => Listing(statement, TrimProbeCorrected(pageSize, summaries))
  }

  // ---------------------------------------------------------------- AddComment

  function CheckStatement(blogId: Id): Statement
  {
    CheckBlog([Text(blogId)])
  }

  function InsertCommentStatement(id: Id, blogId: Id, content: string, author: string): Statement
  {
    InsertComment([Text(id), Text(blogId), Text(content), Text(author)])
  }

  /** Adds a comment under the generated id `newId`, after checking that the
      blog exists. */
  function AddComment(blogId: Id, content: string, author: string, newId: Uuid,
                      check: RowReply<int>, insert: ExecReply): (r: Call<Id>)
    ensures |r.issued| >= 1 && r.issued[0] == CheckBlog([Text(blogId)])
    ensures (exists i :: 0 <= i < |r.issued| && r.issued[i].InsertComment?) <==> check.Found?
    ensures check.Found? ==> r.issued == [CheckBlog([Text(blogId)]), InsertComment([Text(newId), Text(blogId), Text(content), Text(author)])]
    ensures check.NoRows? ==> r.outcome == Err(StoreError(BlogNotFound, "blog not found"))
    ensures check.QueryFailed? ==>
      r.outcome == Err(StoreError(ExistenceCheckFailed, Wrap("failed to check blog existence", check.cause)))
    ensures r.outcome.Ok? <==> check.Found? && !insert.ExecFailed?
    ensures r.outcome.Ok? ==> r.outcome.value == newId && r.outcome.value != ""
    ensures check.Found? && insert.ExecFailed? ==>
      r.outcome == Err(StoreError(AddCommentFailed, Wrap("failed to add comment", insert.cause)))
  {
    var checked := [CheckStatement(blogId)];
    match check
    case NoRows => Call(checked, Err(StoreError(BlogNotFound, "blog not found")))
    case QueryFailed(cause) => Call(checked, Err(StoreError(ExistenceCheckFailed, Wrap("failed to check blog existence", cause))))
    case Found(_) =>
      var issued := checked + [InsertCommentStatement(newId, blogId, content, author)];
      assert issued[1].InsertComment?;
      match insert
      case ExecFailed(cause) => Call(issued, Err(StoreError(AddCommentFailed, Wrap("failed to add comment", cause))))
      case _ => Call(issued, Ok(newId))
  }
}

=== FILE: service.dfy ===
/**
  The request façade: validates each request, forwards it to the store,
  and turns the store's answer into a response or a status error. The
  store is not called here; each handler receives the outcome the store
  would return and reports which store call, if any, it made.
 */
module BlogService {
  import opened Datastore

  // ---------------------------------------------------------------- messages

  datatype UuidMsg = UuidMsg(value: string)

  datatype CommentMsg = CommentMsg(id: UuidMsg, content: string, author: string, createdAt: Timestamp)

  datatype BlogMsg = BlogMsg(
    id: UuidMsg,
    title: string,
    content: string,
    createdAt: Timestamp,
    updatedAt: Timestamp,
    comments: seq<CommentMsg>)

  datatype SummaryMsg = SummaryMsg(id: UuidMsg, title: string, commentCount: int32)

  /** A message field that may be absent is an `Option`. */
  datatype CreateReq = CreateReq(title: string, content: string)
  datatype CreateResp = CreateResp(id: UuidMsg)
  datatype GetReq = GetReq(id: Option<UuidMsg>)
  datatype GetResp = GetResp(blog: BlogMsg)
  datatype UpdateReq = UpdateReq(id: Option<UuidMsg>, title: Option<string>, content: Option<string>)
  datatype DeleteReq = DeleteReq(id: Option<UuidMsg>)
  datatype ListReq = ListReq(pageSize: int32, pageToken: string)
  datatype ListResp = ListResp(blogs: seq<SummaryMsg>, nextPageToken: string)
  datatype AddCommentReq = AddCommentReq(id: Option<UuidMsg>, content: string, author: string)
  datatype Empty = Empty

  // ---------------------------------------------------------------- status

  datatype Code = InvalidArgument | NotFound | Internal

  datatype Status = Status(code: Code, message: string)

  /** What a handler returns. `Crashed` is a panic inside the store, which
      the handler does not recover from. */
  datatype Reply<T> = Response(value: T) | Failure(status: Status) | Crashed

  /** The store call a handler makes, with the arguments it passes. */
  datatype StoreCall =
    | CreateCall(title: string, content: string)
    | GetCall(id: Id)
    | UpdateCall(id: Id, newTitle: Option<string>, newContent: Option<string>)
    | DeleteCall(id: Id)
    | ListCall(pageSize: int32, token: string)
    | AddCommentCall(blogId: Id, content: string, author: string)

  datatype Handled<T> = Handled(call: Option<StoreCall>, reply: Reply<T>)

  /** A request refused before the store was asked. */
  predicate Rejected<T>(h: Handled<T>)
  {
    h.reply.Failure? && h.reply.status.code == InvalidArgument
  }

  const TitleRequired := "title is required"
  const ContentRequired := "content is required"
  const IdRequired := "blog ID is required"
  const CommentContentRequired := "comment content is required"
  const CommentAuthorRequired := "comment author is required"

  const DefaultPageSize: int32 := 10
  const MaxPageSize: int32 := 100

  /** A store error as a status: `<code>` and "<prefix>: <store message>". */
  function StoreFailure<T>(code: Code, prefix: string, e: StoreError): (r: Reply<T>)
    ensures r.Failure? && r.status.code == code
    ensures |r.status.message| == |prefix| + 2 + |e.message|
    ensures r.status.message[..|prefix|] == prefix
    ensures r.status.message[|prefix| + 2..] == e.message
    ensures r.status.message[|prefix|..|prefix| + 2] == ": "
  {
    Failure(Status(code, Wrap(prefix, e.message)))
  }

  // ---------------------------------------------------------------- Create

  function Create(req: CreateReq, stored: Outcome<Id>): (h: Handled<CreateResp>)
    ensures h.call.Some? <==> req.title != "" && req.content != ""
    ensures req.title == "" ==> h.reply == Failure(Status(InvalidArgument, TitleRequired))
    ensures req.title != "" && req.content == "" ==> h.reply == Failure(Status(InvalidArgument, ContentRequired))
    ensures h.call.Some? ==> h.call.value == CreateCall(req.title, req.content)
    ensures h.call.Some? ==> (h.reply.Response? <==> stored.Ok?)
    ensures h.reply.Response? ==> h.reply.value.id.value == stored.value
    ensures h.call.Some? && stored.Err? ==> h.reply == StoreFailure(Internal, "failed to create blog", stored.error)
  {
    if req.title == "" then Handled(None, Failure(Status(InvalidArgument, TitleRequired)))
    else if req.content == "" then Handled(None, Failure(Status(InvalidArgument, ContentRequired)))
    else
      var call := Some(CreateCall(req.title, req.content));
      match stored
      case Err(e) => Handled(call, StoreFailure(Internal, "failed to create blog", e))
      case Ok(id) => Handled(call, Response(CreateResp(UuidMsg(id))))
  }

  // ---------------------------------------------------------------- Get

  function CommentMsgOf(c: Comment): CommentMsg
  {
    CommentMsg(UuidMsg(c.id), c.content, c.author, c.createdAt)
  }

  /** The comments of a blog as sent: those with a non-empty id, in order. */
  function KeepIdentified(cs: seq<Comment>): (r: seq<CommentMsg>)
    ensures |r| <= |cs|
    ensures forall m :: m in r ==> m.id.value != ""
    decreases |cs|
  {
    if cs == [] then []
    else (if cs[0].id != "" then [CommentMsgOf(cs[0])] else []) + KeepIdentified(cs[1..])
  }

  function BlogMsgOf(b: Blog): (m: BlogMsg)
    ensures m.id.value == b.id && m.title == b.title && m.content == b.content
    ensures m.createdAt == b.createdAt && m.updatedAt == b.updatedAt
    ensures m.comments == KeepIdentified(b.comments)
  {
    BlogMsg(UuidMsg(b.id), b.title, b.content, b.createdAt, b.updatedAt, KeepIdentified(b.comments))
  }

  function Get(req: GetReq, stored: Outcome<Blog>): (h: Handled<GetResp>)
    ensures h.call.Some? <==> req.id.Some?
    ensures req.id.None? ==> h.reply == Failure(Status(InvalidArgument, IdRequired))
    ensures req.id.Some? ==> h.call.value == GetCall(req.id.value.value)
    ensures req.id.Some? ==> (h.reply.Response? <==> stored.Ok?)
    ensures h.reply.Response? ==> h.reply.value.blog == BlogMsgOf(stored.value)
    ensures req.id.Some? && stored.Err? ==> h.reply == StoreFailure(NotFound, "failed to get blog", stored.error)
  {
    match req.id
    case None => Handled(None, Failure(Status(InvalidArgument, IdRequired)))
    case Some(uuid) =>
      var call := Some(GetCall(uuid.value));
      match stored
      case Err(e) => Handled(call, StoreFailure(NotFound, "failed to get blog", e))
      case Ok(blog) => Handled(call, Response(GetResp(BlogMsgOf(blog))))
  }

  // ---------------------------------------------------------------- Update

  function Update(req: UpdateReq, stored: Outcome<()>): (h: Handled<Empty>)
    ensures h.call.Some? <==> req.id.Some?
    ensures req.id.None? ==> h.reply == Failure(Status(InvalidArgument, IdRequired))
    ensures req.id.Some? ==> h.call.value.UpdateCall? && h.call.value.id == req.id.value.value
    ensures req.id.Some? ==> (h.call.value.newTitle.Some? <==> req.title.Some?)
    ensures req.id.Some? ==> (h.call.value.newContent.Some? <==> req.content.Some?)
    ensures req.id.Some? && req.title.Some? ==> h.call.value.newTitle.value == req.title.value
    ensures req.id.Some? && req.content.Some? ==> h.call.value.newContent.value == req.content.value
    ensures req.id.Some? ==> (h.reply == Response(Empty) <==> stored.Ok?)
    ensures req.id.Some? && stored.Err? ==> h.reply == StoreFailure(Internal, "failed to update blog", stored.error)
  {
    match req.id
    case None => Handled(None, Failure(Status(InvalidArgument, IdRequired)))
    case Some(uuid) =>
      var title := if req.title.Some? then Some(req.title.value) else None;
      var content := if req.content.Some? then Some(req.content.value) else None;
      var call := Some(UpdateCall(uuid.value, title, content));
      match stored
      case Err(e) => Handled(call, StoreFailure(Internal, "failed to update blog", e))
      case Ok(_) => Handled(call, Response(Empty))
  }

  // ---------------------------------------------------------------- Delete

  function Delete(req: DeleteReq, stored: Outcome<()>): (h: Handled<Empty>)
    ensures h.call.Some? <==> req.id.Some?
    ensures req.id.None? ==> h.reply == Failure(Status(InvalidArgument, IdRequired))
    ensures req.id.Some? ==> h.call.value == DeleteCall(req.id.value.value)
    ensures req.id.Some? ==> (h.reply == Response(Empty) <==> stored.Ok?)
    ensures req.id.Some? && stored.Err? ==> h.reply == StoreFailure(Internal, "failed to delete blog", stored.error)
  {
    match req.id
    case None => Handled(None, Failure(Status(InvalidArgument, IdRequired)))
    case Some(uuid) =>
      var call := Some(DeleteCall(uuid.value));
      match stored
      case Err(e) => Handled(call, StoreFailure(Internal, "failed to delete blog", e))
      case Ok(_) => Handled(call, Response(Empty))
  }

  // ---------------------------------------------------------------- List

  /** The page size the store is asked for: the default for zero or less,
      the maximum above it, the request's own size otherwise. */
  function ClampPageSize(n: int32): (r: int32)
    ensures 1 <= r <= MaxPageSize
    ensures 1 <= n <= MaxPageSize ==> r == n
    ensures n <= 0 ==> r == DefaultPageSize
    ensures n > MaxPageSize ==> r == MaxPageSize
  {
    var defaulted := if n <= 0 then DefaultPageSize else n;
    if defaulted > MaxPageSize then MaxPageSize else defaulted
  }

  function SummaryMsgOf(s: BlogSummary): SummaryMsg
  {
    SummaryMsg(UuidMsg(s.id), s.title, s.commentCount)
  }

  function SummaryMsgs(ss: seq<BlogSummary>): (r: seq<SummaryMsg>)
    ensures |r| == |ss|
    ensures forall i :: 0 <= i < |ss| ==> r[i] == SummaryMsgOf(ss[i])
  {
    seq(|ss|, i requires 0 <= i < |ss| => SummaryMsgOf(ss[i]))
  }

  function List(req: ListReq, stored: ListResult): (h: Handled<ListResp>)
    ensures h.call == Some(ListCall(ClampPageSize(req.pageSize), req.pageToken))
    ensures stored.IndexOutOfRange? <==> h.reply.Crashed?
    ensures stored.Listed? ==> (h.reply.Response? <==> stored.outcome.Ok?)
    ensures h.reply.Response? ==>
      && h.reply.value.blogs == SummaryMsgs(stored.outcome.value.summaries)
      && h.reply.value.nextPageToken == stored.outcome.value.nextToken
    ensures stored.Listed? && stored.outcome.Err? ==>
      h.reply == StoreFailure(Internal, "failed to list blogs", stored.outcome.error)
    ensures !Rejected(h)
  {
    var call := Some(ListCall(ClampPageSize(req.pageSize), req.pageToken));
    match stored
    case IndexOutOfRange => Handled(call, Crashed)
    case Listed(Err(e)) => Handled(call, StoreFailure(Internal, "failed to list blogs", e))
    case Listed(Ok(page)) => Handled(call, Response(ListResp(SummaryMsgs(page.summaries), page.nextToken)))
  }

  // ---------------------------------------------------------------- AddComment

  function AddComment(req: AddCommentReq, stored: Outcome<Id>): (h: Handled<Empty>)
    ensures h.call.Some? <==> req.id.Some? && req.content != "" && req.author != ""
    ensures req.id.None? ==> h.reply == Failure(Status(InvalidArgument, IdRequired))
    ensures req.id.Some? && req.content == "" ==> h.reply == Failure(Status(InvalidArgument, CommentContentRequired))
    ensures req.id.Some? && req.content != "" && req.author == "" ==>
      h.reply == Failure(Status(InvalidArgument, CommentAuthorRequired))
    ensures h.call.Some? ==> h.call.value == AddCommentCall(req.id.value.value, req.content, req.author)
    ensures h.call.Some? ==> (h.reply == Response(Empty) <==> stored.Ok?)
    ensures h.call.Some? && stored.Err? ==> h.reply == StoreFailure(Internal, "failed to add comment", stored.error)
  {
    if req.id.None? then Handled(None, Failure(Status(InvalidArgument, IdRequired)))
    else if req.content == "" then Handled(None, Failure(Status(InvalidArgument, CommentContentRequired)))
    else if req.author == "" then Handled(None, Failure(Status(InvalidArgument, CommentAuthorRequired)))
    else
      var call := Some(AddCommentCall(req.id.value.value, req.content, req.author));
      match stored
      case Err(e) => Handled(call, StoreFailure(Internal, "failed to add comment", e))
      case Ok(_) => Handled(call, Response(Empty))
  }

  // ---------------------------------------------------------------- properties across handlers

  /** Every handler refuses a request with InvalidArgument exactly when it
      does not call the store: validation happens first and only there.
      The handlers that create (Create, AddComment, List). */
  lemma RejectedIffStoreNotCalled(
    c: CreateReq, l: ListReq, a: AddCommentReq, id: Outcome<Id>, page: ListResult)
    ensures Rejected(Create(c, id)) <==> Create(c, id).call.None?
    ensures Rejected(List(l, page)) <==> List(l, page).call.None?
    ensures Rejected(AddComment(a, id)) <==> AddComment(a, id).call.None?
  {
  }

  /** The same for the handlers that address a blog by id. */
  lemma RejectedIffNoId(g: GetReq, u: UpdateReq, d: DeleteReq, blog: Outcome<Blog>, done: Outcome<()>)
    ensures Rejected(Get(g, blog)) <==> Get(g, blog).call.None?
    ensures Rejected(Update(u, done)) <==> Update(u, done).call.None?
    ensures Rejected(Delete(d, done)) <==> Delete(d, done).call.None?
  {
  }

  /** A store error becomes NotFound for Get and Internal everywhere else,
      whatever the error's kind, including "blog not found". */
  lemma StoreErrorCodes(
    c: CreateReq, g: GetReq, u: UpdateReq, d: DeleteReq, l: ListReq, a: AddCommentReq, e: StoreError)
    requires c.title != "" && c.content != ""
    requires g.id.Some? && u.id.Some? && d.id.Some?
    requires a.id.Some? && a.content != "" && a.author != ""
    ensures Create(c, Err(e)).reply.status.code == Internal
    ensures Get(g, Err(e)).reply.status.code == NotFound
    ensures Update(u, Err(e)).reply.status.code == Internal
    ensures Delete(d, Err(e)).reply.status.code == Internal
    ensures List(l, Listed(Err(e))).reply.status.code == Internal
    ensures AddComment(a, Err(e)).reply.status.code == Internal
  {
  }

  /** Clamping is idempotent: a clamped size is passed through unchanged. */
  lemma ClampIdempotent(n: int32)
    ensures ClampPageSize(ClampPageSize(n)) == ClampPageSize(n)
  {
  }

  /** The summaries sent can be read back: id, title and count are carried
      over unchanged. */
  lemma SummaryMsgsRoundTrip(ss: seq<BlogSummary>)
    ensures var ms := SummaryMsgs(ss);
      |ms| == |ss| &&
      forall i :: 0 <= i < |ss| ==> BlogSummary(ms[i].id.value, ms[i].title, ms[i].commentCount) == ss[i]
  {
  }

  /** A comment is sent exactly when its id is non-empty. */
  lemma {:induction false} KeepIdentifiedMembers(cs: seq<Comment>)
    ensures forall m :: m in KeepIdentified(cs) <==>
      exists i :: 0 <= i < |cs| && cs[i].id != "" && m == CommentMsgOf(cs[i])
    decreases |cs|
  {
    if cs != [] {
      KeepIdentifiedMembers(cs[1..]);
      var head := if cs[0].id != "" then [CommentMsgOf(cs[0])] else [];
      forall m
        ensures m in KeepIdentified(cs) <==> exists i :: 0 <= i < |cs| && cs[i].id != "" && m == CommentMsgOf(cs[i])
      {
        if m in KeepIdentified(cs[1..]) {
          var j :| 0 <= j < |cs[1..]| && cs[1..][j].id != "" && m == CommentMsgOf(cs[1..][j]);
          assert cs[j + 1] == cs[1..][j];
        }
        if exists i :: 0 <= i < |cs| && cs[i].id != "" && m == CommentMsgOf(cs[i]) {
          var i :| 0 <= i < |cs| && cs[i].id != "" && m == CommentMsgOf(cs[i]);
          if i > 0 {
            assert cs[1..][i - 1] == cs[i];
          }
        }
      }
    }
  }

  /** Filtering respects concatenation, so the kept comments keep their
      relative order. */
  lemma {:induction false} KeepIdentifiedAppend(a: seq<Comment>, b: seq<Comment>)
    ensures KeepIdentified(a + b) == KeepIdentified(a) + KeepIdentified(b)
    decreases |a|
  {
    if a != [] {
      assert (a + b)[1..] == a[1..] + b;
      KeepIdentifiedAppend(a[1..], b);
    } else {
      assert a + b == b;
    }
  }

  /** Nothing is dropped exactly when every comment has an id; then every
      comment is sent, in order. */
  lemma {:induction false} KeepIdentifiedAll(cs: seq<Comment>)
    ensures |KeepIdentified(cs)| == |cs| <==> forall i :: 0 <= i < |cs| ==> cs[i].id != ""
    ensures (forall i :: 0 <= i < |cs| ==> cs[i].id != "") ==>
      forall i :: 0 <= i < |cs| ==> KeepIdentified(cs)[i] == CommentMsgOf(cs[i])
    decreases |cs|
  {
    if cs != [] {
      KeepIdentifiedAll(cs[1..]);
      forall i | 0 <= i < |cs[1..]|
        ensures cs[1..][i] == cs[i + 1]
      {
      }
    }
  }
}

=== FILE: wiring.dfy ===
/**
  The whole request path: the façade's handlers answered by the store,
  and the store's queries answered by the table. What a client sees for a
  missing blog, an empty update and a listing follows from the three
  layers together.
 */
module Wiring {
  import opened Datastore
  import S = BlogService
  import P = PgStore
  import B = Backend
  import Paging

  /** The id the façade passes to the store, or "" when the request has
      none; the store is not called then and its answer is ignored. */
  function IdOf(id: Option<S.UuidMsg>): Id
  {
    if id.Some? then id.value.value else ""
  }

  function HandleCreate(posts: seq<B.Post>, newId: Uuid, req: S.CreateReq): S.Handled<S.CreateResp>
  {
    S.Create(req, B.CreateOn(posts, newId, req.title, req.content).outcome)
  }

  function HandleGet(posts: seq<B.Post>, req: S.GetReq): S.Handled<S.GetResp>
  {
    S.Get(req, B.GetOn(posts, IdOf(req.id)).outcome)
  }

  function HandleUpdate(posts: seq<B.Post>, req: S.UpdateReq): S.Handled<S.Empty>
  {
    S.Update(req, B.UpdateOn(posts, IdOf(req.id), req.title, req.content).outcome)
  }

  function HandleDelete(posts: seq<B.Post>, req: S.DeleteReq): S.Handled<S.Empty>
  {
    S.Delete(req, B.DeleteOn(posts, IdOf(req.id)).outcome)
  }

  function HandleList(posts: seq<B.Post>, req: S.ListReq): S.Handled<S.ListResp>
  {
    S.List(req, B.ListOn(posts, S.ClampPageSize(req.pageSize), req.pageToken).result)
  }

  function HandleAddComment(posts: seq<B.Post>, newId: Uuid, req: S.AddCommentReq): S.Handled<S.Empty>
  {
    S.AddComment(req, B.AddCommentOn(posts, IdOf(req.id), req.content, req.author, newId).outcome)
  }

  // ---------------------------------------------------------------- a missing blog

  /** Get of a missing blog is NotFound, with the store's two wrappings
      and the driver's text in the message. */
  lemma GetMissingBlog(posts: seq<B.Post>, id: Id)
    requires !B.HasId(posts, id)
    ensures HandleGet(posts, S.GetReq(Some(S.UuidMsg(id)))).reply ==
      S.Failure(S.Status(S.NotFound, "failed to get blog: blog not found: " + P.NoRowsText))
  {
    B.GetOnTable(posts, id);
    NotFoundText();
  }

  const BlogNotFoundSuffix := ": blog not found"

  lemma BlogNotFoundText(prefix: string)
    ensures Wrap(prefix, "blog not found") == prefix + BlogNotFoundSuffix
  {
    assert ": " + "blog not found" == BlogNotFoundSuffix;
    assert (prefix + ": ") + "blog not found" == prefix + (": " + "blog not found");
  }

  lemma NotFoundText()
    ensures Wrap("failed to get blog", Wrap("blog not found", P.NoRowsText)) ==
      "failed to get blog: blog not found: " + P.NoRowsText
  {
    assert "failed to get blog" + ": " == "failed to get blog: ";
    assert "blog not found" + ": " == "blog not found: ";
    assert "failed to get blog: " + "blog not found: " == "failed to get blog: blog not found: ";
  }

  /** Get of a stored blog returns its id, title and content, and no
      comments whatever the table holds: the store never loads them. */
  lemma GetStoredBlog(posts: seq<B.Post>, id: Id)
    requires B.HasId(posts, id)
    ensures var h := HandleGet(posts, S.GetReq(Some(S.UuidMsg(id))));
      && h.reply.Response?
      && h.reply.value.blog.id.value == id
      && (exists i :: 0 <= i < |posts| && posts[i].id == id &&
            h.reply.value.blog.title == posts[i].title && h.reply.value.blog.content == posts[i].content)
      && h.reply.value.blog.comments == []
  {
    B.GetOnTable(posts, id);
  }

  /** Update of a missing blog with a field to write is Internal, not
      NotFound: the façade maps every store error of Update to Internal. */
  lemma UpdateMissingBlog(posts: seq<B.Post>, req: S.UpdateReq)
    requires req.id.Some? && !B.HasId(posts, req.id.value.value)
    requires req.title.Some? || req.content.Some?
    ensures HandleUpdate(posts, req).reply ==
      S.Failure(S.Status(S.Internal, "failed to update blog" + BlogNotFoundSuffix))
  {
    B.UpdateOnTable(posts, req.id.value.value, req.title, req.content);
    BlogNotFoundText("failed to update blog");
  }

  /** Update with no field to write succeeds without a statement, even for
      a blog that does not exist. */
  lemma EmptyUpdateSucceeds(posts: seq<B.Post>, req: S.UpdateReq)
    requires req.id.Some? && req.title.None? && req.content.None?
    ensures HandleUpdate(posts, req).reply == S.Response(S.Empty)
    ensures B.UpdateOn(posts, req.id.value.value, req.title, req.content).issued == []
  {
  }

  lemma DeleteMissingBlog(posts: seq<B.Post>, id: Id)
    requires !B.HasId(posts, id)
    ensures HandleDelete(posts, S.DeleteReq(Some(S.UuidMsg(id)))).reply ==
      S.Failure(S.Status(S.Internal, "failed to delete blog" + BlogNotFoundSuffix))
  {
    B.DeleteOnTable(posts, id);
    BlogNotFoundText("failed to delete blog");
  }

  /** Adding a comment to a missing blog is Internal "blog not found", and
      the store issues only its existence check: nothing is inserted. */
  lemma AddCommentMissingBlog(posts: seq<B.Post>, newId: Uuid, req: S.AddCommentReq)
    requires req.id.Some? && req.content != "" && req.author != ""
    requires !B.HasId(posts, req.id.value.value)
    ensures HandleAddComment(posts, newId, req).reply ==
      S.Failure(S.Status(S.Internal, "failed to add comment" + BlogNotFoundSuffix))
    ensures B.AddCommentOn(posts, req.id.value.value, req.content, req.author, newId).issued ==
      [P.CheckBlog([P.Text(req.id.value.value)])]
  {
    B.AddCommentOnTable(posts, req.id.value.value, req.content, req.author, newId);
    BlogNotFoundText("failed to add comment");
  }

  // ---------------------------------------------------------------- listing through the façade

  /** The façade only asks the store for 1 to 100 blogs, so `LIMIT` is the
      clamped size plus one without wrapping, and the store neither fails
      nor panics on a valid table: the response is that table's page. */
  lemma ListThroughFacade(posts: seq<B.Post>, req: S.ListReq)
    requires B.Valid(posts)
    ensures var k := S.ClampPageSize(req.pageSize);
      var statement := B.ListOn(posts, k, req.pageToken).statement;
      statement.args[statement.limitParam - 1] == P.Int(k + 1)
    ensures B.CountsFit(B.Candidates(posts, req.pageToken))
    ensures var page := Paging.ProbePage(B.Candidates(posts, req.pageToken), S.ClampPageSize(req.pageSize) as int);
      HandleList(posts, req).reply == S.Response(S.ListResp(S.SummaryMsgs(page.summaries), page.nextToken))
  {
    var k := S.ClampPageSize(req.pageSize);
    assert AddWrap32(k, 1) == k + 1;
    Paging.ListOnPage(posts, k, req.pageToken);
  }

  /** Whatever the requested size, a listing through the façade never
      reaches the store's empty-slice panic. */
  lemma FacadeListNeverCrashes(posts: seq<B.Post>, req: S.ListReq)
    ensures !HandleList(posts, req).reply.Crashed?
  {
  }

  /** Created ids are the generated ones: a free id is returned to the
      client, a taken one is an Internal error. */
  lemma CreateThroughFacade(posts: seq<B.Post>, newId: Uuid, req: S.CreateReq)
    requires req.title != "" && req.content != ""
    ensures HandleCreate(posts, newId, req).reply.Response? <==> !B.HasId(posts, newId)
    ensures !B.HasId(posts, newId) ==> HandleCreate(posts, newId, req).reply.value.id.value == newId
    ensures B.HasId(posts, newId) ==> HandleCreate(posts, newId, req).reply.status.code == S.Internal
  {
    B.CreateOnTable(posts, newId, req.title, req.content);
  }
}
